=== FILE: README.md ===
# Title-to-catalog matcher

Two batch scripts read a CSV of product titles and match each title against a
catalog of manufacturers and products. For every title they report the
manufacturer id and product id found, next to the ids recorded in the file.

- `a-index.js` lower-cases and tokenizes the title. It builds tiers of
  n-grams of sizes 5 down to 1. Each n-gram is expanded into its respellings
  over the punctuation characters `-`, `/` and `.`.
- `s-index.js` takes the n-grams of a natural-language parser twice: as
  written and as normalized.

Both scripts then run the same resolver:

1. One manufacturer statement per search: name or synonym among the n-grams.
2. If any manufacturer was matched, one product statement per search, scoped
   to the pooled manufacturer ids: model or synonym among the n-grams.
3. The first product of the first search with products is selected. The
   manufacturer is that product's owner. With no product, it is the first
   manufacturer matched.

The two scripts handle a failing statement differently. `a-index.js` has no
`catch`, so the whole run fails. `s-index.js` skips that title.
`s-index.js:20-65` repeats the code of `a-index.js:38-82`, so one
`Resolver` module models both files.

Modules:

- `Wrappers`: `Option` and `Result`.
- `Seqs`: filter, map, and the insertion-ordered de-duplication of a
  JavaScript `Set`.
- `Text`: `split`/`join` replacement, the whitespace tokenizer, `trim` and
  contiguous n-grams.
- `Variants`: the punctuation respellings.
- `CatalogStore`: the catalog tables and the two `SELECT DISTINCT ... LEFT
  JOIN` statements.
  - The catalog store is a value: the catalog plus the set of statements it
    refuses.
  - A statement fails exactly when it is in that set.
- `Resolver`: `findManufacturers`, `findProducts`, `getManufacturer`,
  `getFirstManufacturer` and the selection.
- `Resolution`: what a resolution means in terms of the catalog alone.
- `Rows`: CSV records and result rows.
- `AIndex` and `SIndex`: the two scripts' search construction and batch
  loops.

## Model

| member | source | states |
|---|---|---|
| Text.ReplaceAll | a-index.js:26 | the length is kept; `find` no longer occurs when the two characters differ; replacing a character by itself is the identity; every other character of the result was already in the input |
| Text.ReplaceAllIsSplitJoin | a-index.js:26 | the character-wise replacement equals splitting at `find` and joining the pieces with `replace` |
| Text.SplitJoinReplaces | a-index.js:26 | joining the pieces of `split(c)` with `d` is the character-wise replacement of `c` by `d` |
| Text.SplitJoinRoundTrip | a-index.js:26 | `split(c)` followed by `join(c)` gives the string back, so no character is lost or invented by the pair |
| Text.Split | a-index.js:26 | `split(c)` gives at least one piece and no piece contains `c` |
| Text.JoinWith | a-index.js:26 | a joined string starts with its first part, followed by the separator when there is more than one part |
| Variants.ReplaceSpecialChars | a-index.js:27-29 | nine respellings; the first is the string itself; a string is among them exactly when it is the string with one special character replaced by another; a string without special characters gives nine copies of itself |
| Variants.WithSpecialChars | a-index.js:31-36 | contains every input; has no duplicates; extends the de-duplicated inputs; every element is an input or a respelling of one, and every respelling appears; without special characters it is exactly the de-duplicated inputs; empty exactly when the input is |
| Variants.AllVariants | a-index.js:33 | the pushed respellings are exactly the respellings of some input |
| Variants.VariantsOfPlainAreInputs | a-index.js:20 | inputs without `-`, `/` or `.` have no respelling other than themselves |
| Variants.SpecialCharRespellings | a-index.js:27-35 | an input holding a special character is looked up under all three respellings of that character, and they are pairwise distinct: one lookup string per replacement character |
| Seqs.Dedup | a-index.js:35 | `[...new Set(xs).values()]` has exactly the elements of `xs`, each once, and is no longer than `xs` |
| Seqs.DedupKeepsFirstOccurrenceOrder | a-index.js:35 | the de-duplication lists elements in the order of their first occurrence |
| Seqs.DedupIdempotent | a-index.js:35 | de-duplicating twice is de-duplicating once |
| Text.Tokenize | a-index.js:24 | every token is a non-empty run without whitespace |
| Text.TokenizeIsSplitDiscardEmpty | a-index.js:24 | for every string, the tokens are exactly the non-empty pieces, in order, of the string split at whitespace, as the `RegexpTokenizer` with pattern `\s+` and `discardEmpty` gives them |
| Text.TokenizeWord | a-index.js:24 | a single word without whitespace is a single token |
| Text.TokenizeAtSpace | a-index.js:24 | a whitespace character always separates tokens: the text on either side of it is tokenized independently |
| Text.BlankHasNoTokens | a-index.js:24 | a title made of whitespace only has no tokens |
| Text.TokensAreTheNonSpaceCharacters | a-index.js:24 | the tokens, concatenated, are the title with its whitespace removed |
| Text.TokenizeJoinRoundTrip | a-index.js:24 | tokenizing words joined by single spaces gives back the words |
| Text.NGrams | a-index.js:105 | a window size larger than the token count gives none; otherwise there are n-size+1 windows; the i-th window tokenizes back to tokens i to i+size, and joining those tokens with one space gives the window again, so each window is `x.join(' ')` |
| Text.UnigramsAreTokens | a-index.js:105 | the windows of size 1 are the tokens themselves |
| Text.Trim | s-index.js:88 | the result is a substring of the input with only whitespace cut before and after it, and it neither starts nor ends with whitespace |
| AIndex.TierSizes | a-index.js:103 | the script's only call, `_.rangeRight(1, 6)`, is 5, 4, 3, 2, 1 (a single instance of `AIndex.RangeRight`) |
| AIndex.RangeRight | a-index.js:103 | `_.rangeRight(lo, hi)` for `lo <= hi`: hi - lo integers, the i-th being hi - 1 - i, all within [lo, hi) |
| AIndex.Tier | a-index.js:104-107 | a tier carries its size and has n-grams exactly when its size is at most the token count |
| AIndex.BuildSearches | a-index.js:103-110 | min(n, 5) searches remain: the tail of the five tiers; each has n-grams (`HasNgrams`, the `!_.isEmpty(x.ngrams)` filter of line 110); sizes are strictly decreasing from 5 down to 1; no tokens means no search |
| AIndex.SearchIsTier | a-index.js:103-110 | for a title of n tokens, the i-th search (i < min(n, 5)) is the tier of size min(n, 5) - i |
| AIndex.TitleSearches | a-index.js:100-110 | a lowercased title of n tokens gives min(n, 5) searches; no tokens gives no search |
| AIndex.BaseFormsAreWindows | a-index.js:104-107 | every contiguous window of the tier's size is among the tier's n-grams and tokenizes back to exactly those tokens; conversely every n-gram of the tier is a punctuation respelling of one of those windows |
| AIndex.TierIsRespelledWindows | a-index.js:104-107 | every n-gram of a tier is a punctuation respelling of one of its windows |
| AIndex.TitleTiers | a-index.js:100-110 | a lowercased title of n tokens gives min(n, 5) searches, each with n-grams, the i-th of size min(n, 5) - i; no tokens gives no search |
| CatalogStore.LeftJoin | a-index.js:43-44 | a left join pairs each left row with every matching right row, or with nothing when none matches |
| CatalogStore.ManufacturerRows | a-index.js:40-45 | exactly the catalog manufacturers whose name, or one of whose synonyms, is among the n-grams, each once |
| CatalogStore.ManufacturerSelection | a-index.js:40-45 | any row list with the left join's rows, filtered by the `WHERE` clause, projects onto exactly the manufacturers named by the n-grams |
| CatalogStore.ProductRows | a-index.js:62-67 | exactly the catalog products of the given manufacturers whose model, or one of whose synonyms, is among the n-grams, each once |
| CatalogStore.ProductSelection | a-index.js:62-67 | any row list with the left join's rows, filtered by the `WHERE` clause, projects onto exactly the products scoped and named by the n-grams |
| Resolver.FindManufacturers | a-index.js:38-52 | succeeds exactly when no manufacturer statement is refused; otherwise fails with the first refused one; on success each search keeps its n-grams and carries its manufacturer rows |
| CatalogStore.FirstRefused | a-index.js:39-71 | the statements sent one by one stop at the first refused one: none exactly when the store refuses none, otherwise the earliest refused statement |
| Resolver.FindProducts | a-index.js:54-74 | with no pooled id, returns the searches untouched; otherwise succeeds exactly when no scoped product statement is refused; each search then carries the products scoped to the pooled ids; every product found is owned by a pooled manufacturer |
| Resolver.PooledIds | a-index.js:55 | an id is pooled exactly when some search's manufacturer has it |
| Resolver.SelectProduct | a-index.js:115 | a product is selected exactly when some search has products (`HasProducts`: `products && products.length > 0`), and it is the first product of the earliest such search |
| Resolver.GetManufacturer | a-index.js:76-78 | found exactly when the id is pooled; the result has that id and is one of the matched manufacturers |
| Resolver.AllManufacturers | a-index.js:77 | `map('manufacturers').flatten()`: a row is in the flattened list exactly when some search carries it |
| Resolver.FindById | a-index.js:77 | `.find(_.matchesProperty('id', id))` finds a row exactly when some row has that id, and returns the first such row |
| Resolver.GetFirstManufacturer | a-index.js:80-82 | found exactly when some search has a manufacturer; it is the first manufacturer of the earliest such search |
| Resolver.FlattenHead | a-index.js:81 | the head of the flattened manufacturer lists is the first manufacturer of the earliest non-empty list |
| Resolver.Select | a-index.js:115-117 | the product is the selected product; with a product, the manufacturer is present exactly when the owner's id is pooled, and it is the owner; without a product, it is the first manufacturer |
| Resolver.Resolve | a-index.js:111-117 | no searches means no manufacturer and no product; a selected product always comes with its owner as the manufacturer |
| Resolver.ProductOwnersArePooled | a-index.js:55-67 | product lookup keeps the pooled ids and only returns products owned by a pooled manufacturer |
| Resolution.MatchedIds | a-index.js:55 | an id is matched exactly when some search names a catalog manufacturer with that id |
| Resolution.ResolveIsSelectOfAnswered | a-index.js:111-117 | resolving succeeds exactly when every manufacturer statement succeeds and, if any id was matched, every scoped product statement succeeds; it then equals selecting from the catalog's own answers; a failure names a refused statement |
| Resolution.NoManufacturerNoProduct | a-index.js:57-59 | when no search names a manufacturer, only manufacturer statements can fail, and success means no manufacturer and no product |
| Resolution.FirstProductWins | a-index.js:115 | a product is selected exactly when some search has a scoped product; it is the first product of the earliest such search |
| Resolution.FirstManufacturerFallback | a-index.js:117 | without a product, a manufacturer is reported exactly when some search names one; it is the first manufacturer of the earliest such search |
| Resolution.SelectionIsNamed | a-index.js:115-117 | the reported manufacturer is in the catalog and named by a search; the reported product is in the catalog, named by a search, and owned by the reported manufacturer |
| AIndex.LargestTierWins | a-index.js:102-115 | no product exactly when no tier has a scoped product; otherwise the product is the first one of a tier, and no larger tier has any |
| AIndex.NewModelFromLargestTier | a-index.js:102-122 | a line's `new_model` is the id of the first product of the largest tier of its title that has any, and is absent exactly when no tier has one |
| Rows.RowOf | a-index.js:118-124 | title, `old_man` and `old_model` are cells 0, 1 and 2 unchanged; `new_man` and `new_model` are the selected ids, absent exactly when nothing was selected |
| Rows.Body | a-index.js:94 | every line after the header, in order |
| AIndex.ProcessRecord | a-index.js:99-124 | a line without a title fails; a successful row carries the title and the recorded ids unchanged; a failure from the store names a refused statement |
| AIndex.RecordRowIsSelection | a-index.js:100-124 | a line with a title succeeds exactly when resolving its title's searches succeeds, and its row then holds the ids selected from the catalog's own answers to those searches |
| AIndex.NoTokensNoMatch | a-index.js:100-117 | a title without tokens gives a row with no manufacturer and no product |
| AIndex.ManufacturerFollowsProduct | a-index.js:115-122 | a row with a new product also has a new manufacturer, and the catalog has that product owned by that manufacturer |
| AIndex.Run | a-index.js:94-125 | the run succeeds exactly when every line succeeds, and then it has one row per line in order; otherwise it fails with the first line's failure |
| Wrappers.FirstError | a-index.js:94-125 | with no catch, the first failing line is where the run stops: no error exactly when every outcome succeeded, otherwise the error of the earliest failure |
| AIndex.RowsPassThrough | a-index.js:118-124 | after a successful run there is one row per line after the header, and each carries its line's title and recorded ids |
| AIndex.OneFailureAbortsRun | a-index.js:94-125 | any failing line makes the whole run fail |
| SIndex.BuildSearches | s-index.js:84-94 | with no parser n-grams there is no search (the `HasNgrams` filter drops both); otherwise the raw-text search comes first and the normalized search second, each holding the trimmed strings of every n-gram |
| SIndex.RawTexts | s-index.js:88 | one entry per parser n-gram: its text, trimmed |
| SIndex.NormalTexts | s-index.js:92 | one entry per parser n-gram: its normal form, trimmed |
| SIndex.RawTextFirst | s-index.js:87-101 | a product from the raw-text search wins over one from the normalized search; the normalized one is used only when the raw-text search has none; no product exactly when neither has one |
| SIndex.RowPrefersRawText | s-index.js:87-108 | a line's `new_model` is the id of the first raw-text product when there is one, otherwise of the first normalized product, and is absent exactly when neither search has one |
| SIndex.ProcessRecord | s-index.js:83-110 | a successful row carries the title and recorded ids unchanged; a failure names a refused statement; a title without n-grams gives a row with no manufacturer and no product |
| SIndex.RecordRowIsSelection | s-index.js:84-108 | a line succeeds exactly when resolving its two searches succeeds, and its row then holds the ids selected from the catalog's own answers to those searches |
| SIndex.ManufacturerFollowsProduct | s-index.js:101-108 | a row with a new product also has a new manufacturer, and the catalog has that product owned by that manufacturer |
| SIndex.Run | s-index.js:81-116 | a row is emitted exactly when it is the result of some line whose lookup succeeds; if every lookup succeeds, there is one row per line in order |
| SIndex.FailingTitleSkipped | s-index.js:96-115 | a line whose lookup fails leaves the rows exactly as if that line were absent |
| Wrappers.Oks | s-index.js:96-115 | the loop that catches failures collects exactly the successful values, and all of them in order when nothing fails |
| Wrappers.OksAppend | s-index.js:96-115 | collecting the successful rows distributes over concatenation of the lines |

## Left out

- The MySQL connection, `squel` statement text and `async`/`await` sequencing.
  - The catalog is a value of four tables.
  - A statement is a value (`ManufacturerQuery`, `ProductQuery`), and the store refuses a fixed set of them.
  - Rows come back in catalog order with exact, case-sensitive string equality. The code fixes neither row order nor collation.
- CSV reading and writing (`async-csv`, `csv-writer`), file paths and `console.log`. A file is a sequence of records of cells.
- The `natural` tokenizer and `NGrams`. They are modelled as splitting on whitespace runs, dropping empty pieces, and contiguous windows joined by one space.
- `toLocaleLowerCase`. It is the parameter `lower` of `AIndex`; locale rules are not modelled.
- The `compromise` parser in `s-index.js:84`. It is the parameter `nlp`, called with the title cell, or with `None` for a line that has none.
- `sleep` (`s-index.js:66-70`). It is never called.
- A JavaScript exception raised inside `a-index.js` is not distinguished from a refused statement. Both end the run, here as `AIndex.Run` returning `Err`. A line without a title cell fails with `MissingTitle`, because `toLocaleLowerCase` of `undefined` throws.
- Ranking candidates by word count or length, writing only the rows whose ids differ from the recorded ones, and n-grams of size 6. Neither script does any of these: the first row of the earliest search wins, no row is filtered out by comparing ids, and sizes run from 5 down to 1.
- AIndex.RangeRight: covers only `lo <= hi`. For `lo > hi` lodash counts upwards from `hi + 1` to `lo`; `a-index.js:103` only calls it as `_.rangeRight(1, 6)`.
- Every failure the store can raise is a refused statement. Errors of other kinds, and partial effects of a failure part-way through a loop, are not modelled: both scripts discard the searches of a failed title.

=== FILE: aindex.dfy ===
/** a-index.js: tiered n-gram searches over the lowercased title, resolved
    title by title; the first failure ends the whole run. */
module AIndex {
  import opened Wrappers
  import opened Seqs
  import opened Text
  import opened Variants
  import opened CatalogStore
  import opened Resolver
  import opened Resolution
  import opened Rows

  /** lodash `_.rangeRight(lo, hi)` for `lo <= hi`: the integers from `hi - 1`
      down to `lo`. (For `lo > hi` lodash counts the other way; the script only
      calls it with `lo < hi`.) */
  function RangeRight(lo: nat, hi: nat): (r: seq<nat>)
    requires lo <= hi
    ensures |r| == hi - lo
    ensures forall i :: 0 <= i < |r| ==> r[i] == hi - 1 - i && lo <= r[i] < hi
    decreases hi - lo
  {
    if hi == lo then [] else [hi - 1] + RangeRight(lo, hi - 1)
  }

  /** The tier sizes the loop of a-index.js:103 visits: five down to one (six
      is never reached). */
  lemma TierSizes()
    ensures RangeRight(1, 6) == [5, 4, 3, 2, 1]
  {
  }

  /** One tier: the windows of `size` tokens, joined by spaces and expanded
      with their punctuation variants. */
  function Tier(tokens: seq<string>, size: nat): (r: Search)
    ensures r.size == Some(size)
    ensures |r.ngrams| > 0 <==> size <= |tokens|
  {
    Search(WithSpecialChars(NGrams(tokens, size)), Some(size))
  }

  /** All five tiers, largest windows first, before filtering. */
  function AllTiers(tokens: seq<string>): (r: seq<Search>)
    ensures |r| == 5
  {
    Map(RangeRight(1, 6), size => Tier(tokens, size))
  }

  /** Tier `i` of the five is the one of size `5 - i`. */
  lemma TierAt(tokens: seq<string>, i: nat)
    requires i < 5
    ensures AllTiers(tokens)[i] == Tier(tokens, 5 - i)
  {
    assert RangeRight(1, 6)[i] == 5 - i;
  }

  /** Every search is a tier, and later tiers have strictly smaller windows. */
  predicate DecreasingSizes(searches: seq<Search>) {
    && (forall i :: 0 <= i < |searches| ==> searches[i].size.Some? && searches[i].size.value >= 1)
    && (forall i, j :: 0 <= i < j < |searches| ==> searches[i].size.value > searches[j].size.value)
  }

  /** a-index.js:103-110: the tiers that have any n-gram, largest first. With
      n tokens these are exactly the sizes min(n, 5) down to 1: the tail of
      all five tiers that drops the sizes larger than n. */
  function BuildSearches(tokens: seq<string>): (r: seq<Search>)
    ensures |r| == if |tokens| < 5 then |tokens| else 5
    ensures r == AllTiers(tokens)[5 - |r|..]
    ensures forall i :: 0 <= i < |r| ==> HasNgrams(r[i])
    ensures DecreasingSizes(r)
    ensures |tokens| == 0 ==> r == []
  {
    var tiers := AllTiers(tokens);
    AllTiersShape(tokens);
    KeptTiers(tiers, |tokens|);
    KeptTail(tiers, |tokens|);
    Filter(tiers, HasNgrams)
  }

  /** The five tiers carry the sizes five down to one, and a tier has n-grams
      exactly when the title has at least as many tokens as its size. */
  lemma AllTiersShape(tokens: seq<string>)
    ensures forall i :: 0 <= i < 5 ==> AllTiers(tokens)[i].size == Some(5 - i)
    ensures forall i :: 0 <= i < 5 ==> (HasNgrams(AllTiers(tokens)[i]) <==> 5 - i <= |tokens|)
  {
    forall i | 0 <= i < 5
      ensures AllTiers(tokens)[i] == Tier(tokens, 5 - i)
    {
      TierAt(tokens, i);
    }
  }

  /** Filtering the five tiers keeps exactly the sizes up to `n`: it drops the
      larger ones, which come first. */
  lemma KeptTiers(tiers: seq<Search>, n: nat)
    requires |tiers| == 5
    requires forall i :: 0 <= i < 5 ==> (HasNgrams(tiers[i]) <==> 5 - i <= n)
    ensures Filter(tiers, HasNgrams) == tiers[(if n < 5 then 5 - n else 0)..]
  {
    FilterDropsPrefix(tiers, HasNgrams, if n < 5 then 5 - n else 0);
  }

  /** The tail of the five tiers from the first size up to `n` holds only
      non-empty tiers, in strictly decreasing size. */
  lemma KeptTail(tiers: seq<Search>, n: nat)
    requires |tiers| == 5
    requires forall i :: 0 <= i < 5 ==> tiers[i].size == Some(5 - i)
    requires forall i :: 0 <= i < 5 ==> (HasNgrams(tiers[i]) <==> 5 - i <= n)
    ensures var tail := tiers[(if n < 5 then 5 - n else 0)..];
            && |tail| == (if n < 5 then n else 5)
            && (forall i :: 0 <= i < |tail| ==> HasNgrams(tail[i]))
            && DecreasingSizes(tail)
  {
    var k := if n < 5 then 5 - n else 0;
    var tail := tiers[k..];
    assert forall i :: 0 <= i < |tail| ==> tail[i] == tiers[k + i];
  }

  /** How many tiers a title of these tokens keeps: one per window size from
      min(n, 5) down to 1. */
  function TierCount(tokens: seq<string>): nat {
    if |tokens| < 5 then |tokens| else 5
  }

  /** Tier `i` of a title holds the windows of size `TierCount - i`. */
  lemma SearchIsTier(tokens: seq<string>, i: nat)
    requires i < |tokens| && i < 5
    ensures BuildSearches(tokens)[i] == Tier(tokens, TierCount(tokens) - i)
  {
    var k := 5 - TierCount(tokens) + i;
    SearchInTiers(tokens, i);
    TierAt(tokens, k);
    assert 5 - k == TierCount(tokens) - i;
  }

  /** Search `i` is tier `5 - TierCount + i` of the five. */
  lemma SearchInTiers(tokens: seq<string>, i: nat)
    requires i < |tokens| && i < 5
    ensures |BuildSearches(tokens)| == TierCount(tokens)
    ensures BuildSearches(tokens)[i] == AllTiers(tokens)[5 - TierCount(tokens) + i]
  {
  }

  /** The base forms of tier `i` are the windows of its size: the window
      starting at token `w` is among the tier's n-grams, and tokenizing it
      gives back exactly the tokens it was made of. */
  lemma BaseFormsAreWindows(tokens: seq<string>, i: nat, w: nat)
    requires forall k :: 0 <= k < |tokens| ==> IsWord(tokens[k])
    requires i < |tokens| && i < 5
    requires w + TierCount(tokens) - i <= |tokens|
    ensures NGrams(tokens, TierCount(tokens) - i)[w] in BuildSearches(tokens)[i].ngrams
    ensures Tokenize(NGrams(tokens, TierCount(tokens) - i)[w]) == tokens[w..w + TierCount(tokens) - i]
    ensures forall x :: x in BuildSearches(tokens)[i].ngrams ==>
              RespellsWindow(x, NGrams(tokens, TierCount(tokens) - i))
  {
    SearchHoldsWindow(tokens, i, w);
    SearchRespellsWindows(tokens, i);
  }

  /** The window of search `i`'s size starting at `w` is among its n-grams
      and tokenizes back to its tokens. */
  lemma SearchHoldsWindow(tokens: seq<string>, i: nat, w: nat)
    requires forall k :: 0 <= k < |tokens| ==> IsWord(tokens[k])
    requires i < |tokens| && i < 5
    requires w + TierCount(tokens) - i <= |tokens|
    ensures NGrams(tokens, TierCount(tokens) - i)[w] in BuildSearches(tokens)[i].ngrams
    ensures Tokenize(NGrams(tokens, TierCount(tokens) - i)[w]) == tokens[w..w + TierCount(tokens) - i]
  {
    SearchIsTier(tokens, i);
    TierHoldsWindows(tokens, TierCount(tokens) - i, w);
  }

  /** Every n-gram of search `i` respells a window of its size. */
  lemma SearchRespellsWindows(tokens: seq<string>, i: nat)
    requires i < |tokens| && i < 5
    ensures forall x :: x in BuildSearches(tokens)[i].ngrams ==>
              RespellsWindow(x, NGrams(tokens, TierCount(tokens) - i))
  {
    var size := TierCount(tokens) - i;
    SearchIsTier(tokens, i);
    forall x | x in Tier(tokens, size).ngrams
      ensures RespellsWindow(x, NGrams(tokens, size))
    {
      TierIsRespelledWindows(tokens, size, x);
    }
  }

  /** Conversely, every n-gram of a tier is a punctuation respelling of one of
      its windows. */
  lemma TierIsRespelledWindows(tokens: seq<string>, size: nat, x: string)
    requires x in Tier(tokens, size).ngrams
    ensures RespellsWindow(x, NGrams(tokens, size))
  {
    ExpansionRespells(NGrams(tokens, size), x);
  }

  /** The window of `size` tokens starting at `w` is among the n-grams of the
      tier of that size, and tokenizes back to those tokens. */
  lemma TierHoldsWindows(tokens: seq<string>, size: nat, w: nat)
    requires forall k :: 0 <= k < |tokens| ==> IsWord(tokens[k])
    requires 1 <= size && w + size <= |tokens|
    ensures NGrams(tokens, size)[w] in Tier(tokens, size).ngrams
    ensures Tokenize(NGrams(tokens, size)[w]) == tokens[w..w + size]
  {
    var windows := NGrams(tokens, size);
    assert windows[w] in windows;
  }

  /** The searches of one title: lowercase (a parameter, standing for
      `toLocaleLowerCase`), split on whitespace, build the tiers. */
  function TitleSearches(lower: string -> string, title: string): (r: seq<Search>)
    ensures |Tokenize(lower(title))| == 0 ==> r == []
    ensures |r| == TierCount(Tokenize(lower(title)))
  {
    BuildSearches(Tokenize(lower(title)))
  }

  /** A lowercased title of n tokens gives min(n, 5) searches, all with
      n-grams, the i-th one of window size min(n, 5) - i. */
  lemma TitleTiers(lower: string -> string, title: string)
    ensures var r := TitleSearches(lower, title);
            && |r| == TierCount(Tokenize(lower(title)))
            && DecreasingSizes(r)
            && forall i :: 0 <= i < |r| ==> HasNgrams(r[i]) && r[i].size == Some(|r| - i)
  {
    var tokens := Tokenize(lower(title));
    var r := TitleSearches(lower, title);
    AllTiersShape(tokens);
    forall i | 0 <= i < |r|
      ensures r[i].size == Some(|r| - i)
    {
      SearchInTiers(tokens, i);
    }
  }

  /** Why a run of a-index.js gives up: a line without a title cell (the call
      `toLocaleLowerCase` on `undefined` throws) or a refused statement. */
  datatype Failure = MissingTitle | Refused(query: Query)

  /** The loop body of a-index.js:95-124 for one record. */
  function ProcessRecord(lower: string -> string, store: Store, rec: Record): (r: Result<ResultRow, Failure>)
    ensures |rec.cells| == 0 ==> r == Err(MissingTitle)
    ensures r.Ok? ==> r.value.title == Cell(rec, 0) && r.value.title.Some?
    ensures r.Ok? ==> r.value.oldManufacturer == Cell(rec, 1) && r.value.oldProduct == Cell(rec, 2)
    ensures r.Err? && r.error.Refused? ==> r.error.query in store.failing
  {
    match Cell(rec, 0)
    case None => Err(MissingTitle)
    case Some(title) =>
      var sel := Resolve(store, TitleSearches(lower, title));
      if sel.Err? then Err(Refused(sel.error))
      else Ok(RowOf(rec, sel.value))
  }

  /** What a line's row reports: a line with a title succeeds exactly when
      resolving its title's searches does, and its row then holds the ids
      selected from the catalog's own answers to those searches. */
  lemma RecordRowIsSelection(lower: string -> string, store: Store, rec: Record)
    requires |rec.cells| > 0
    ensures ProcessRecord(lower, store, rec).Ok? <==> Resolve(store, TitleSearches(lower, rec.cells[0])).Ok?
    ensures ProcessRecord(lower, store, rec).Ok? ==>
              ProcessRecord(lower, store, rec).value
                == RowOf(rec, Select(Answered(store.catalog, TitleSearches(lower, rec.cells[0]))))
  {
    var title := rec.cells[0];
    var searches := TitleSearches(lower, title);
    var res := Resolve(store, searches);
    assert Cell(rec, 0) == Some(title);
    assert ProcessRecord(lower, store, rec)
        == if res.Err? then Err(Refused(res.error)) else Ok(RowOf(rec, res.value));
    ResolvedIsSelected(store, searches);
  }

  /** The outcome of every record after the header, in order. */
  function Outcomes(lower: string -> string, store: Store, csv: seq<Record>): (r: seq<Result<ResultRow, Failure>>)
    ensures |r| == |Body(csv)|
    ensures forall i :: 0 <= i < |r| ==> r[i] == ProcessRecord(lower, store, Body(csv)[i])
  {
    var body := Body(csv);
    seq(|body|, i requires 0 <= i < |body| => ProcessRecord(lower, store, body[i]))
  }

  /** The whole script (a-index.js:94-125): one result row per record after
      the header, in order; there is no per-title catch, so the first failure
      rejects the run and no row is written. */
  function Run(lower: string -> string, store: Store, csv: seq<Record>): (r: Result<seq<ResultRow>, Failure>)
    ensures r.Ok? <==> forall i :: 0 <= i < |Body(csv)| ==> ProcessRecord(lower, store, Body(csv)[i]).Ok?
    ensures r.Err? ==>
              exists i :: 0 <= i < |Body(csv)| && ProcessRecord(lower, store, Body(csv)[i]) == Err(r.error)
                && forall j :: 0 <= j < i ==> ProcessRecord(lower, store, Body(csv)[j]).Ok?
    ensures r.Ok? ==> |r.value| == |Body(csv)|
    ensures r.Ok? ==> forall i :: 0 <= i < |Body(csv)| ==> r.value[i] == ProcessRecord(lower, store, Body(csv)[i]).value
  {
    var outcomes := Outcomes(lower, store, csv);
    var failed := FirstError(outcomes);
    FirstErrorOfOutcomes(outcomes, lower, store, Body(csv));
    if failed.Some? then Err(failed.value)
    else Ok(seq(|outcomes|, i requires 0 <= i < |outcomes| => outcomes[i].value))
  }

  /** The first failing outcome, stated per record. */
  lemma FirstErrorOfOutcomes(outcomes: seq<Result<ResultRow, Failure>>, lower: string -> string, store: Store, body: seq<Record>)
    requires |outcomes| == |body|
    requires forall i :: 0 <= i < |outcomes| ==> outcomes[i] == ProcessRecord(lower, store, body[i])
    ensures FirstError(outcomes).None? <==> forall i :: 0 <= i < |body| ==> ProcessRecord(lower, store, body[i]).Ok?
    ensures FirstError(outcomes).Some? ==>
              exists i :: 0 <= i < |body| && ProcessRecord(lower, store, body[i]) == Err(FirstError(outcomes).value)
                && forall j :: 0 <= j < i ==> ProcessRecord(lower, store, body[j]).Ok?
  {
  }

  /** Exactly one row per record after the header, in order, carrying that
      record's title and recorded ids unchanged. */
  lemma RowsPassThrough(lower: string -> string, store: Store, csv: seq<Record>)
    requires Run(lower, store, csv).Ok?
    ensures |csv| > 0 ==> |Run(lower, store, csv).value| == |csv| - 1
    ensures forall i :: 1 <= i < |csv| ==>
              && Run(lower, store, csv).value[i - 1].title == Cell(csv[i], 0)
              && Run(lower, store, csv).value[i - 1].oldManufacturer == Cell(csv[i], 1)
              && Run(lower, store, csv).value[i - 1].oldProduct == Cell(csv[i], 2)
  {
    var rows := Run(lower, store, csv).value;
    var body := Body(csv);
    forall i | 1 <= i < |csv|
      ensures rows[i - 1].title == Cell(csv[i], 0)
      ensures rows[i - 1].oldManufacturer == Cell(csv[i], 1) && rows[i - 1].oldProduct == Cell(csv[i], 2)
    {
      assert body[i - 1] == csv[i];
      assert ProcessRecord(lower, store, body[i - 1]).Ok?;
    }
  }

  /** A run fails exactly when some record after the header fails, however
      many records succeed before or after it. */
  lemma OneFailureAbortsRun(lower: string -> string, store: Store, csv: seq<Record>, k: nat)
    requires 1 <= k < |csv|
    requires ProcessRecord(lower, store, csv[k]).Err?
    ensures Run(lower, store, csv).Err?
  {
    assert Body(csv)[k - 1] == csv[k];
  }

  /** A title without tokens sends no statement at all: its row comes out
      with neither a new manufacturer nor a new product, whatever the store
      would refuse. */
  lemma NoTokensNoMatch(lower: string -> string, store: Store, rec: Record)
    requires |rec.cells| > 0 && Tokenize(lower(rec.cells[0])) == []
    ensures ProcessRecord(lower, store, rec).Ok?
    ensures ProcessRecord(lower, store, rec).value.newManufacturer.None?
    ensures ProcessRecord(lower, store, rec).value.newProduct.None?
  {
    var title := rec.cells[0];
    assert Cell(rec, 0) == Some(title);
    assert TitleSearches(lower, title) == [];
    assert Resolve(store, []) == Ok(Selection(None, None));
    assert ProcessRecord(lower, store, rec) == Ok(RowOf(rec, Selection(None, None)));
  }

  /** Whenever a row reports a new product, it reports a new manufacturer as
      well, and the catalog has a product with that id owned by that
      manufacturer, named by one of the title's tiers. */
  lemma ManufacturerFollowsProduct(lower: string -> string, store: Store, rec: Record)
    requires ProcessRecord(lower, store, rec).Ok?
    requires ProcessRecord(lower, store, rec).value.newProduct.Some?
    ensures ProcessRecord(lower, store, rec).value.newManufacturer.Some?
    ensures exists p :: p in store.catalog.products
              && p.id == ProcessRecord(lower, store, rec).value.newProduct.value
              && p.manufacturerId == ProcessRecord(lower, store, rec).value.newManufacturer.value
  {
    var title := rec.cells[0];
    var searches := TitleSearches(lower, title);
    ResolveIsSelectOfAnswered(store, searches);
    var sel := Select(Answered(store.catalog, searches));
    assert Resolve(store, searches) == Ok(sel);
    SelectionIsNamed(store.catalog, searches);
    assert sel.product.value in store.catalog.products;
  }

  /** The product chosen for a title is the first product of the largest tier
      that has any; no tier has one exactly when no product is chosen. */
  lemma LargestTierWins(cat: Catalog, searches: seq<Search>)
    requires DecreasingSizes(searches)
    ensures Select(Answered(cat, searches)).product.None? <==>
              forall i :: 0 <= i < |searches| ==> ProductRows(cat, MatchedIds(cat, searches), searches[i].ngrams) == []
    ensures var sel := Select(Answered(cat, searches));
            sel.product.Some? ==>
              exists i :: 0 <= i < |searches|
                && ProductRows(cat, MatchedIds(cat, searches), searches[i].ngrams) != []
                && sel.product.value == ProductRows(cat, MatchedIds(cat, searches), searches[i].ngrams)[0]
                && forall j :: 0 <= j < |searches| && searches[j].size.value > searches[i].size.value ==>
                     ProductRows(cat, MatchedIds(cat, searches), searches[j].ngrams) == []
  {
    var ids := MatchedIds(cat, searches);
    var sel := Select(Answered(cat, searches));
    FirstProductWins(cat, searches);
    if sel.product.Some? {
      var i :| 0 <= i < |searches|
                 && ProductRows(cat, ids, searches[i].ngrams) != []
                 && sel.product.value == ProductRows(cat, ids, searches[i].ngrams)[0]
                 && forall j :: 0 <= j < i ==> ProductRows(cat, ids, searches[j].ngrams) == [];
      LargerComesFirst(searches, i);
    }
  }

  /** End to end: the `new_model` of a line's row is the id of the first
      product of the largest tier of its title that has any, and is absent
      exactly when no tier has one. */
  lemma NewModelFromLargestTier(lower: string -> string, store: Store, rec: Record)
    requires ProcessRecord(lower, store, rec).Ok?
    ensures var searches := TitleSearches(lower, rec.cells[0]);
            var ids := MatchedIds(store.catalog, searches);
            var row := ProcessRecord(lower, store, rec).value;
            && (row.newProduct.None? <==>
                  forall i :: 0 <= i < |searches| ==> ProductRows(store.catalog, ids, searches[i].ngrams) == [])
            && (row.newProduct.Some? ==>
                  exists i :: 0 <= i < |searches|
                    && ProductRows(store.catalog, ids, searches[i].ngrams) != []
                    && row.newProduct.value == ProductRows(store.catalog, ids, searches[i].ngrams)[0].id
                    && forall j :: 0 <= j < |searches| && searches[j].size.value > searches[i].size.value ==>
                         ProductRows(store.catalog, ids, searches[j].ngrams) == [])
  {
    var searches := TitleSearches(lower, rec.cells[0]);
    RecordRowIsSelection(lower, store, rec);
    LargestTierWins(store.catalog, searches);
  }

  /** With strictly decreasing sizes, every search larger than search `i`
      comes before it. */
  lemma LargerComesFirst(searches: seq<Search>, i: nat)
    requires DecreasingSizes(searches)
    requires i < |searches|
    ensures forall j :: 0 <= j < |searches| && searches[j].size.value > searches[i].size.value ==> j < i
  {
  }
}

=== FILE: catalog.dfy ===
/** The catalog the scripts query, as an in-memory value: four tables, the two
    SELECT statements as LEFT JOIN / WHERE / DISTINCT over them, and a store
    that can refuse a query. Rows come back in table order. */
module CatalogStore {
  import opened Wrappers
  import opened Seqs

  datatype Manufacturer = Manufacturer(id: int, name: string)
  datatype ManufacturerSynonym = ManufacturerSynonym(manufacturerId: int, synonym: string)
  datatype Product = Product(id: int, manufacturerId: int, model: string)
  datatype ProductSynonym = ProductSynonym(productId: int, name: string)

  /** The `manufacturers`, `manufacturer_synonyms`, `products` and
      `product_synonyms` tables. */
  datatype Catalog = Catalog(
    manufacturers: seq<Manufacturer>,
    manufacturerSynonyms: seq<ManufacturerSynonym>,
    products: seq<Product>,
    productSynonyms: seq<ProductSynonym>)

  /** The two statements the scripts send, identified by their parameters. */
  datatype Query =
    | ManufacturerQuery(ngrams: seq<string>)
    | ProductQuery(manufacturerIds: seq<int>, ngrams: seq<string>)

  /** The database connection: the catalog it serves, and the queries on which
      it fails (a lost connection, a server error). */
  datatype Store = Store(catalog: Catalog, failing: set<Query>)

  /** The left-hand row of a joined pair. */
  function Left<L, R>(row: (L, Option<R>)): L {
    row.0
  }

  /** The joined rows of one left-hand row: one per matching right-hand row, or a
      single row with a missing right-hand side when none matches. */
  function JoinOne<L, R(!new)>(l: L, rs: seq<R>, on: (L, R) -> bool): (r: seq<(L, Option<R>)>)
    ensures forall x :: (l, Some(x)) in r <==> x in rs && on(l, x)
    ensures (l, None) in r <==> forall x :: x in rs ==> !on(l, x)
    ensures forall row :: row in r ==> row.0 == l
  {
    var matching := Filter(rs, x => on(l, x));
    assert forall x :: x in matching <==> x in rs && on(l, x);
    if |matching| == 0 then [(l, None)]
    else
      var r := Map(matching, x => (l, Some(x)));
      assert forall x :: x in matching ==> (l, Some(x)) == r[FirstIndex(matching, x)];
      assert forall row :: row in r ==> row.0 == l && row.1.Some?;
      assert matching[0] in matching;
      r
  }

  /** SQL `l LEFT JOIN r ON on`, in the order of the left table. */
  function LeftJoin<L(!new), R(!new)>(ls: seq<L>, rs: seq<R>, on: (L, R) -> bool): (r: seq<(L, Option<R>)>)
    ensures forall l, x :: (l, Some(x)) in r <==> l in ls && x in rs && on(l, x)
    ensures forall l :: (l, None) in r <==> l in ls && forall x :: x in rs ==> !on(l, x)
    ensures forall row :: row in r ==> row.0 in ls
  {
    if |ls| == 0 then []
    else
      var head := JoinOne(ls[0], rs, on);
      var rest := LeftJoin(ls[1..], rs, on);
      var r := head + rest;
      assert forall row :: row in r <==> row in head || row in rest;
      assert forall l :: l in ls <==> l == ls[0] || l in ls[1..];
      r
  }

  /** The left-hand rows of joined pairs (`SELECT l.*`). */
  function Lefts<L, R>(rows: seq<(L, Option<R>)>): (r: seq<L>)
    ensures |r| == |rows|
    ensures forall i :: 0 <= i < |rows| ==> r[i] == rows[i].0
  {
    Map(rows, Left)
  }

  /** The join condition `m.id = ms.manufacturer_id`. */
  predicate SynonymOfManufacturer(m: Manufacturer, s: ManufacturerSynonym) {
    s.manufacturerId == m.id
  }

  /** `manufacturers m LEFT JOIN manufacturer_synonyms ms ON m.id = ms.manufacturer_id`. */
  function ManufacturerJoin(cat: Catalog): (r: seq<(Manufacturer, Option<ManufacturerSynonym>)>)
    ensures forall l, x :: (l, Some(x)) in r <==>
              l in cat.manufacturers && x in cat.manufacturerSynonyms && SynonymOfManufacturer(l, x)
    ensures forall l :: (l, None) in r <==>
              l in cat.manufacturers && forall x :: x in cat.manufacturerSynonyms ==> !SynonymOfManufacturer(l, x)
    ensures forall row :: row in r ==> row.0 in cat.manufacturers
  {
    LeftJoin(cat.manufacturers, cat.manufacturerSynonyms, SynonymOfManufacturer)
  }

  /** The joined manufacturer rows the WHERE clause keeps. */
  function ManufacturerHits(ngrams: seq<string>, joined: seq<(Manufacturer, Option<ManufacturerSynonym>)>)
    : (r: seq<(Manufacturer, Option<ManufacturerSynonym>)>)
    ensures forall row :: row in r <==> row in joined && ManufacturerHit(ngrams, row)
  {
    Filter(joined, row => ManufacturerHit(ngrams, row))
  }

  /** The WHERE clause of the manufacturer statement:
      `m.name IN ngrams OR ms.synonym IN ngrams`. A missing synonym is NULL and
      never IN anything. */
  predicate ManufacturerHit(ngrams: seq<string>, row: (Manufacturer, Option<ManufacturerSynonym>)) {
    row.0.name in ngrams || (row.1.Some? && row.1.value.synonym in ngrams)
  }

  /** A manufacturer is named by the n-grams: its name, or one of its synonyms,
      is one of them. */
  ghost predicate NamedBy(cat: Catalog, m: Manufacturer, ngrams: seq<string>) {
    || m.name in ngrams
    || exists s :: s in cat.manufacturerSynonyms && s.manufacturerId == m.id && s.synonym in ngrams
  }

  /** `SELECT DISTINCT m.* FROM manufacturers m LEFT JOIN manufacturer_synonyms ms
      ON m.id = ms.manufacturer_id WHERE m.name IN ngrams OR ms.synonym IN ngrams`.
      Exactly the catalog manufacturers named by the n-grams, each once. */
  function ManufacturerRows(cat: Catalog, ngrams: seq<string>): (r: seq<Manufacturer>)
    ensures forall m :: m in r <==> m in cat.manufacturers && NamedBy(cat, m, ngrams)
    ensures NoDup(r)
  {
    var joined := ManufacturerJoin(cat);
    var hits := ManufacturerHits(ngrams, joined);
    var owners := Lefts(hits);
    ManufacturerSelection(cat, ngrams, joined, hits, owners);
    Dedup(owners)
  }

  lemma ManufacturerSelection(cat: Catalog, ngrams: seq<string>,
                              joined: seq<(Manufacturer, Option<ManufacturerSynonym>)>,
                              hits: seq<(Manufacturer, Option<ManufacturerSynonym>)>,
                              owners: seq<Manufacturer>)
    requires forall l, x :: (l, Some(x)) in joined <==>
               l in cat.manufacturers && x in cat.manufacturerSynonyms && SynonymOfManufacturer(l, x)
    requires forall l :: (l, None) in joined <==>
               l in cat.manufacturers && forall x :: x in cat.manufacturerSynonyms ==> !SynonymOfManufacturer(l, x)
    requires forall row :: row in joined ==> row.0 in cat.manufacturers
    requires forall row :: row in hits <==> row in joined && ManufacturerHit(ngrams, row)
    requires |owners| == |hits| && forall i :: 0 <= i < |hits| ==> owners[i] == hits[i].0
    ensures forall m :: m in owners <==> m in cat.manufacturers && NamedBy(cat, m, ngrams)
  {
    forall m | m in owners
      ensures m in cat.manufacturers && NamedBy(cat, m, ngrams)
    {
      var i :| 0 <= i < |owners| && owners[i] == m;
      assert hits[i] in hits;
    }
    forall m | m in cat.manufacturers && NamedBy(cat, m, ngrams)
      ensures m in owners
    {
      var row: (Manufacturer, Option<ManufacturerSynonym>);
      if exists s :: s in cat.manufacturerSynonyms && s.manufacturerId == m.id && s.synonym in ngrams {
        var s :| s in cat.manufacturerSynonyms && s.manufacturerId == m.id && s.synonym in ngrams;
        row := (m, Some(s));
      } else if exists s :: s in cat.manufacturerSynonyms && s.manufacturerId == m.id {
        var s :| s in cat.manufacturerSynonyms && s.manufacturerId == m.id;
        row := (m, Some(s));
      } else {
        row := (m, None);
      }
      assert row in hits;
      var i :| 0 <= i < |hits| && hits[i] == row;
      assert owners[i] == m;
    }
  }

  /** The WHERE clause of the product statement:
      `p.manufacturer_id IN ids AND (p.model IN ngrams OR ps.name IN ngrams)`. */
  predicate ProductHit(ids: seq<int>, ngrams: seq<string>, row: (Product, Option<ProductSynonym>)) {
    row.0.manufacturerId in ids && (row.0.model in ngrams || (row.1.Some? && row.1.value.name in ngrams))
  }

  /** The join condition `p.id = ps.product_id`. */
  predicate SynonymOfProduct(p: Product, s: ProductSynonym) {
    s.productId == p.id
  }

  /** `products p LEFT JOIN product_synonyms ps ON p.id = ps.product_id`. */
  function ProductJoin(cat: Catalog): (r: seq<(Product, Option<ProductSynonym>)>)
    ensures forall l, x :: (l, Some(x)) in r <==>
              l in cat.products && x in cat.productSynonyms && SynonymOfProduct(l, x)
    ensures forall l :: (l, None) in r <==>
              l in cat.products && forall x :: x in cat.productSynonyms ==> !SynonymOfProduct(l, x)
    ensures forall row :: row in r ==> row.0 in cat.products
  {
    LeftJoin(cat.products, cat.productSynonyms, SynonymOfProduct)
  }

  /** The joined product rows the WHERE clause keeps. */
  function ProductHits(ids: seq<int>, ngrams: seq<string>, joined: seq<(Product, Option<ProductSynonym>)>)
    : (r: seq<(Product, Option<ProductSynonym>)>)
    ensures forall row :: row in r <==> row in joined && ProductHit(ids, ngrams, row)
  {
    Filter(joined, row => ProductHit(ids, ngrams, row))
  }

  /** A product is named by the n-grams: its model, or one of its synonyms, is
      one of them. */
  ghost predicate ModelNamedBy(cat: Catalog, p: Product, ngrams: seq<string>) {
    || p.model in ngrams
    || exists s :: s in cat.productSynonyms && s.productId == p.id && s.name in ngrams
  }

  /** `SELECT DISTINCT p.* FROM products p LEFT JOIN product_synonyms ps
      ON p.id = ps.product_id WHERE p.manufacturer_id IN ids AND (p.model IN ngrams
      OR ps.name IN ngrams)`. Exactly the catalog products of the given
      manufacturers named by the n-grams, each once. */
  function ProductRows(cat: Catalog, ids: seq<int>, ngrams: seq<string>): (r: seq<Product>)
    ensures forall p :: p in r <==> p in cat.products && p.manufacturerId in ids && ModelNamedBy(cat, p, ngrams)
    ensures NoDup(r)
  {
    var joined := ProductJoin(cat);
    var hits := ProductHits(ids, ngrams, joined);
    var owners := Lefts(hits);
    ProductSelection(cat, ids, ngrams, joined, hits, owners);
    Dedup(owners)
  }

  lemma ProductSelection(cat: Catalog, ids: seq<int>, ngrams: seq<string>,
                         joined: seq<(Product, Option<ProductSynonym>)>,
                         hits: seq<(Product, Option<ProductSynonym>)>,
                         owners: seq<Product>)
    requires forall l, x :: (l, Some(x)) in joined <==>
               l in cat.products && x in cat.productSynonyms && SynonymOfProduct(l, x)
    requires forall l :: (l, None) in joined <==>
               l in cat.products && forall x :: x in cat.productSynonyms ==> !SynonymOfProduct(l, x)
    requires forall row :: row in joined ==> row.0 in cat.products
    requires forall row :: row in hits <==> row in joined && ProductHit(ids, ngrams, row)
    requires |owners| == |hits| && forall i :: 0 <= i < |hits| ==> owners[i] == hits[i].0
    ensures forall p :: p in owners <==>
              p in cat.products && p.manufacturerId in ids && ModelNamedBy(cat, p, ngrams)
  {
    forall p | p in owners
      ensures p in cat.products && p.manufacturerId in ids && ModelNamedBy(cat, p, ngrams)
    {
      var i :| 0 <= i < |owners| && owners[i] == p;
      assert hits[i] in hits;
    }
    forall p | p in cat.products && p.manufacturerId in ids && ModelNamedBy(cat, p, ngrams)
      ensures p in owners
    {
      var row: (Product, Option<ProductSynonym>);
      if exists s :: s in cat.productSynonyms && s.productId == p.id && s.name in ngrams {
        var s :| s in cat.productSynonyms && s.productId == p.id && s.name in ngrams;
        row := (p, Some(s));
      } else if exists s :: s in cat.productSynonyms && s.productId == p.id {
        var s :| s in cat.productSynonyms && s.productId == p.id;
        row := (p, Some(s));
      } else {
        row := (p, None);
      }
      assert row in hits;
      var i :| 0 <= i < |hits| && hits[i] == row;
      assert owners[i] == p;
    }
  }

  /** Sending statements one after another and stopping at the first error:
      the first statement the store refuses, if any. */
  function FirstRefused(store: Store, qs: seq<Query>): (r: Option<Query>)
    ensures r.None? <==> forall i :: 0 <= i < |qs| ==> qs[i] !in store.failing
    ensures r.Some? ==>
              exists i :: 0 <= i < |qs| && qs[i] == r.value && r.value in store.failing
                && forall j :: 0 <= j < i ==> qs[j] !in store.failing
  {
    if |qs| == 0 then None
    else if qs[0] in store.failing then Some(qs[0])
    else
      var r := FirstRefused(store, qs[1..]);
      assert forall i :: 1 <= i < |qs| ==> qs[i] == qs[1..][i - 1];
      r
  }
}

=== FILE: resolution.dfy ===
/** What resolving a title means in terms of the catalog itself: which
    statements must succeed, which product wins, which manufacturer is
    reported. */
module Resolution {
  import opened Wrappers
  import opened CatalogStore
  import opened Resolver

  /** The manufacturer ids the searches name, search by search: what
      `findProducts` pools when every manufacturer statement succeeds. */
  function MatchedIds(cat: Catalog, searches: seq<Search>): (r: seq<int>)
    ensures forall id :: id in r <==>
              exists i, m :: 0 <= i < |searches| && m in ManufacturerRows(cat, searches[i].ngrams) && m.id == id
  {
    if |searches| == 0 then []
    else
      var rest := MatchedIds(cat, searches[1..]);
      MatchedStep(cat, searches, rest);
      Ids(ManufacturerRows(cat, searches[0].ngrams)) + rest
  }

  /** The ids the first search names, followed by those the others name, are
      the ids all the searches name. */
  lemma MatchedStep(cat: Catalog, searches: seq<Search>, rest: seq<int>)
    requires |searches| > 0
    requires forall id :: id in rest <==>
               exists i, m :: 0 <= i < |searches[1..]| && m in ManufacturerRows(cat, searches[1..][i].ngrams) && m.id == id
    ensures forall id :: id in Ids(ManufacturerRows(cat, searches[0].ngrams)) + rest <==>
              exists i, m :: 0 <= i < |searches| && m in ManufacturerRows(cat, searches[i].ngrams) && m.id == id
  {
    var head := ManufacturerRows(cat, searches[0].ngrams);
    forall id
      ensures id in Ids(head) + rest <==>
                exists i, m :: 0 <= i < |searches| && m in ManufacturerRows(cat, searches[i].ngrams) && m.id == id
    {
      if id in rest {
        var i, m :| 0 <= i < |searches[1..]| && m in ManufacturerRows(cat, searches[1..][i].ngrams) && m.id == id;
        assert searches[1..][i] == searches[i + 1];
      }
      if exists i, m :: 0 <= i < |searches| && m in ManufacturerRows(cat, searches[i].ngrams) && m.id == id {
        var i, m :| 0 <= i < |searches| && m in ManufacturerRows(cat, searches[i].ngrams) && m.id == id;
        if i > 0 {
          assert searches[i] == searches[1..][i - 1];
        }
      }
    }
  }

  /** The searches as the catalog answers them when no statement fails: each
      with the manufacturers it names and, once any manufacturer is named, the
      products it names among the named manufacturers. */
  function Answered(cat: Catalog, searches: seq<Search>): (r: seq<Found>)
    ensures |r| == |searches|
    ensures forall i :: 0 <= i < |searches| ==> r[i].search == searches[i]
    ensures forall i :: 0 <= i < |searches| ==> r[i].manufacturers == ManufacturerRows(cat, searches[i].ngrams)
    ensures forall i :: 0 <= i < |searches| ==>
              r[i].products == if |MatchedIds(cat, searches)| == 0 then None
                               else Some(ProductRows(cat, MatchedIds(cat, searches), searches[i].ngrams))
  {
    var ids := MatchedIds(cat, searches);
    seq(|searches|, i requires 0 <= i < |searches| =>
          Found(searches[i], ManufacturerRows(cat, searches[i].ngrams),
                if |ids| == 0 then None else Some(ProductRows(cat, ids, searches[i].ngrams))))
  }

  /** Pooling the ids of searches that carry the catalog's manufacturer rows
      gives the ids the searches name. */
  lemma {:induction false} PooledAreMatched(cat: Catalog, searches: seq<Search>, found: seq<Found>)
    requires |found| == |searches|
    requires forall i :: 0 <= i < |found| ==> found[i].manufacturers == ManufacturerRows(cat, searches[i].ngrams)
    ensures PooledIds(found) == MatchedIds(cat, searches)
  {
    if |searches| > 0 {
      PooledAreMatched(cat, searches[1..], found[1..]);
    }
  }

  /** A catalog query scoped to no manufacturer finds no product. */
  lemma NoIdsNoProducts(cat: Catalog, ngrams: seq<string>)
    ensures ProductRows(cat, [], ngrams) == []
  {
    var r := ProductRows(cat, [], ngrams);
    NonEmptyHasHead(r);
  }

  /** A non-empty sequence holds its first element. */
  lemma NonEmptyHasHead<T>(s: seq<T>)
    ensures |s| > 0 ==> s[0] in s
  {
  }

  /** Resolving a title, compared with the catalog answering directly: it
      succeeds exactly when every manufacturer statement succeeds and, if some
      manufacturer was named, every product statement scoped to the named
      manufacturers succeeds too; it then selects from the catalog's answers,
      and otherwise reports a refused statement. */
  lemma ResolveIsSelectOfAnswered(store: Store, searches: seq<Search>)
    ensures Resolve(store, searches).Ok? <==>
              && (forall i :: 0 <= i < |searches| ==> ManufacturerQuery(searches[i].ngrams) !in store.failing)
              && (|MatchedIds(store.catalog, searches)| == 0
                  || forall i :: 0 <= i < |searches| ==>
                       ProductQuery(MatchedIds(store.catalog, searches), searches[i].ngrams) !in store.failing)
    ensures Resolve(store, searches).Ok? ==>
              Resolve(store, searches).value == Select(Answered(store.catalog, searches))
    ensures Resolve(store, searches).Err? ==> Resolve(store, searches).error in store.failing
  {
    var m := FindManufacturers(store, searches);
    if m.Ok? {
      PooledAreMatched(store.catalog, searches, m.value);
      var p := FindProducts(store, m.value);
      if p.Ok? {
        ProductsAreAnswered(store, searches, m.value, p.value);
      }
    }
  }

  /** Searches carrying the catalog's manufacturer rows, once product lookup
      succeeds, are the catalog's answers. */
  lemma ProductsAreAnswered(store: Store, searches: seq<Search>, found: seq<Found>, withProducts: seq<Found>)
    requires |found| == |searches|
    requires forall i :: 0 <= i < |found| ==> found[i].search == searches[i]
    requires forall i :: 0 <= i < |found| ==> found[i].manufacturers == ManufacturerRows(store.catalog, searches[i].ngrams)
    requires forall i :: 0 <= i < |found| ==> found[i].products.None?
    requires PooledIds(found) == MatchedIds(store.catalog, searches)
    requires FindProducts(store, found) == Ok(withProducts)
    ensures withProducts == Answered(store.catalog, searches)
  {
    var answered := Answered(store.catalog, searches);
    assert forall i :: 0 <= i < |searches| ==> withProducts[i] == answered[i];
  }

  /** A successful resolution is the selection from the catalog's answers. */
  lemma ResolvedIsSelected(store: Store, searches: seq<Search>)
    ensures Resolve(store, searches).Ok? ==>
              Resolve(store, searches).value == Select(Answered(store.catalog, searches))
  {
    ResolveIsSelectOfAnswered(store, searches);
  }

  /** When no search names any manufacturer, no product statement is sent: the
      lookup fails only through a manufacturer statement, and otherwise both
      the manufacturer and the product are null. */
  lemma NoManufacturerNoProduct(store: Store, searches: seq<Search>)
    requires forall i, m :: 0 <= i < |searches| && m in store.catalog.manufacturers ==>
               !NamedBy(store.catalog, m, searches[i].ngrams)
    ensures Resolve(store, searches).Ok? <==>
              forall i :: 0 <= i < |searches| ==> ManufacturerQuery(searches[i].ngrams) !in store.failing
    ensures Resolve(store, searches).Ok? ==> Resolve(store, searches).value == Selection(None, None)
  {
    ResolveIsSelectOfAnswered(store, searches);
    NothingNamedSelectsNothing(store.catalog, searches);
  }

  /** When no search names any manufacturer, no id is matched and the catalog's
      answers select nothing. */
  lemma NothingNamedSelectsNothing(cat: Catalog, searches: seq<Search>)
    requires forall i, m :: 0 <= i < |searches| && m in cat.manufacturers ==> !NamedBy(cat, m, searches[i].ngrams)
    ensures |MatchedIds(cat, searches)| == 0
    ensures Select(Answered(cat, searches)) == Selection(None, None)
  {
    var answered := Answered(cat, searches);
    forall i | 0 <= i < |searches|
      ensures answered[i].manufacturers == []
    {
      NonEmptyHasHead(answered[i].manufacturers);
    }
    NonEmptyHasHead(MatchedIds(cat, searches));
    EmptyListsSelectNothing(answered);
  }

  /** Searches without manufacturers and without products select nothing. */
  lemma EmptyListsSelectNothing(found: seq<Found>)
    requires forall i :: 0 <= i < |found| ==> found[i].manufacturers == [] && found[i].products.None?
    ensures Select(found) == Selection(None, None)
  {
    FlattenHead(found);
  }

  /** The product selected is the first row of the earliest search whose
      scoped product statement returns any row; there is one exactly when some
      search has such a row. */
  lemma FirstProductWins(cat: Catalog, searches: seq<Search>)
    ensures Select(Answered(cat, searches)).product.Some? <==>
              exists i :: 0 <= i < |searches| && ProductRows(cat, MatchedIds(cat, searches), searches[i].ngrams) != []
    ensures Select(Answered(cat, searches)).product.Some? ==>
              exists i :: 0 <= i < |searches|
                && ProductRows(cat, MatchedIds(cat, searches), searches[i].ngrams) != []
                && Select(Answered(cat, searches)).product.value == ProductRows(cat, MatchedIds(cat, searches), searches[i].ngrams)[0]
                && forall j :: 0 <= j < i ==> ProductRows(cat, MatchedIds(cat, searches), searches[j].ngrams) == []
  {
    var ids := MatchedIds(cat, searches);
    var lists := seq(|searches|, i requires 0 <= i < |searches| => ProductRows(cat, ids, searches[i].ngrams));
    AnsweredProductLists(cat, searches);
    FirstOfProducts(Answered(cat, searches), lists);
  }

  /** A search of the catalog's answers has products exactly when its scoped
      product statement returns rows, and then it carries those rows. */
  lemma AnsweredProductLists(cat: Catalog, searches: seq<Search>)
    ensures forall i :: 0 <= i < |searches| ==>
              (HasProducts(Answered(cat, searches)[i]) <==> ProductRows(cat, MatchedIds(cat, searches), searches[i].ngrams) != [])
    ensures forall i :: 0 <= i < |searches| && HasProducts(Answered(cat, searches)[i]) ==>
              Answered(cat, searches)[i].products.value == ProductRows(cat, MatchedIds(cat, searches), searches[i].ngrams)
  {
    if |MatchedIds(cat, searches)| == 0 {
      forall i | 0 <= i < |searches|
        ensures ProductRows(cat, MatchedIds(cat, searches), searches[i].ngrams) == []
      {
        NoIdsNoProducts(cat, searches[i].ngrams);
      }
    }
  }

  /** `SelectProduct` only looks at the non-empty product lists: it takes the
      head of the earliest one. */
  lemma FirstOfProducts(found: seq<Found>, lists: seq<seq<Product>>)
    requires |found| == |lists|
    requires forall i :: 0 <= i < |found| ==> (HasProducts(found[i]) <==> lists[i] != [])
    requires forall i :: 0 <= i < |found| ==> HasProducts(found[i]) ==> found[i].products.value == lists[i]
    ensures Select(found).product.Some? <==> exists i :: 0 <= i < |lists| && lists[i] != []
    ensures Select(found).product.Some? ==>
              exists i :: 0 <= i < |lists| && lists[i] != []
                && Select(found).product.value == lists[i][0]
                && forall j :: 0 <= j < i ==> lists[j] == []
  {
  }

  /** Without a product, the manufacturer reported is the first row of the
      earliest search that names any manufacturer; there is one exactly when
      some search names one. */
  lemma FirstManufacturerFallback(cat: Catalog, searches: seq<Search>)
    requires Select(Answered(cat, searches)).product.None?
    ensures Select(Answered(cat, searches)).manufacturer.Some? <==>
              exists i :: 0 <= i < |searches| && |ManufacturerRows(cat, searches[i].ngrams)| > 0
    ensures Select(Answered(cat, searches)).manufacturer.Some? ==>
              exists i :: 0 <= i < |searches|
                && |ManufacturerRows(cat, searches[i].ngrams)| > 0
                && Select(Answered(cat, searches)).manufacturer.value == ManufacturerRows(cat, searches[i].ngrams)[0]
                && forall j :: 0 <= j < i ==> ManufacturerRows(cat, searches[j].ngrams) == []
  {
    FirstNamedManufacturer(cat, searches);
  }

  /** The first manufacturer attached to the catalog's answers is the first
      row of the earliest search that names any. */
  lemma FirstNamedManufacturer(cat: Catalog, searches: seq<Search>)
    ensures GetFirstManufacturer(Answered(cat, searches)).Some? <==>
              exists i :: 0 <= i < |searches| && |ManufacturerRows(cat, searches[i].ngrams)| > 0
    ensures GetFirstManufacturer(Answered(cat, searches)).Some? ==>
              exists i :: 0 <= i < |searches|
                && |ManufacturerRows(cat, searches[i].ngrams)| > 0
                && GetFirstManufacturer(Answered(cat, searches)).value == ManufacturerRows(cat, searches[i].ngrams)[0]
                && forall j :: 0 <= j < i ==> ManufacturerRows(cat, searches[j].ngrams) == []
  {
    var answered := Answered(cat, searches);
    var lists := seq(|searches|, i requires 0 <= i < |searches| => ManufacturerRows(cat, searches[i].ngrams));
    FirstOfLists(answered, lists);
  }

  /** `GetFirstManufacturer` only looks at the manufacturer lists: it takes
      the head of the earliest non-empty one. */
  lemma FirstOfLists(found: seq<Found>, lists: seq<seq<Manufacturer>>)
    requires |found| == |lists|
    requires forall i :: 0 <= i < |found| ==> found[i].manufacturers == lists[i]
    ensures GetFirstManufacturer(found).Some? <==> exists i :: 0 <= i < |lists| && |lists[i]| > 0
    ensures GetFirstManufacturer(found).Some? ==>
              exists i :: 0 <= i < |lists| && |lists[i]| > 0
                && GetFirstManufacturer(found).value == lists[i][0]
                && forall j :: 0 <= j < i ==> lists[j] == []
  {
  }

  /** Whatever is selected is in the catalog and named by the title: the
      manufacturer through its name or a synonym, the product through its model
      or a synonym, and the product's manufacturer is the one reported. */
  lemma SelectionIsNamed(cat: Catalog, searches: seq<Search>)
    ensures Select(Answered(cat, searches)).manufacturer.Some? ==>
              var m := Select(Answered(cat, searches)).manufacturer.value;
              m in cat.manufacturers && exists i :: 0 <= i < |searches| && NamedBy(cat, m, searches[i].ngrams)
    ensures Select(Answered(cat, searches)).product.Some? ==>
              var sel := Select(Answered(cat, searches));
              && sel.product.value in cat.products
              && (exists i :: 0 <= i < |searches| && ModelNamedBy(cat, sel.product.value, searches[i].ngrams))
              && sel.manufacturer.Some?
              && sel.manufacturer.value.id == sel.product.value.manufacturerId
  {
    ReportedManufacturerIsNamed(cat, searches);
    ReportedProductIsNamed(cat, searches);
  }

  /** The reported manufacturer is a catalog manufacturer named by a search. */
  lemma ReportedManufacturerIsNamed(cat: Catalog, searches: seq<Search>)
    ensures Select(Answered(cat, searches)).manufacturer.Some? ==>
              var m := Select(Answered(cat, searches)).manufacturer.value;
              m in cat.manufacturers && exists i :: 0 <= i < |searches| && NamedBy(cat, m, searches[i].ngrams)
  {
    var answered := Answered(cat, searches);
    var sel := Select(answered);
    if sel.manufacturer.Some? {
      var m := sel.manufacturer.value;
      var i :| 0 <= i < |answered| && m in answered[i].manufacturers;
      assert m in ManufacturerRows(cat, searches[i].ngrams);
    }
  }

  /** The reported product is a catalog product named by a search, owned by
      the reported manufacturer. */
  lemma ReportedProductIsNamed(cat: Catalog, searches: seq<Search>)
    ensures Select(Answered(cat, searches)).product.Some? ==>
              var sel := Select(Answered(cat, searches));
              && sel.product.value in cat.products
              && (exists i :: 0 <= i < |searches| && ModelNamedBy(cat, sel.product.value, searches[i].ngrams))
              && sel.manufacturer.Some?
              && sel.manufacturer.value.id == sel.product.value.manufacturerId
  {
    var answered := Answered(cat, searches);
    var sel := Select(answered);
    if sel.product.Some? {
      var p := sel.product.value;
      var i :| 0 <= i < |answered| && HasProducts(answered[i]) && p == answered[i].products.value[0];
      assert p in ProductRows(cat, MatchedIds(cat, searches), searches[i].ngrams);
      PooledAreMatched(cat, searches, answered);
    }
  }
}

=== FILE: resolver.dfy ===
/** The resolver and selector both scripts share: `findManufacturers`,
    `findProducts`, `getManufacturer`, `getFirstManufacturer` and the choice of
    the first product. It works on any list of searches; a-index.js builds one
    search per n-gram size, s-index.js one for raw text and one for normalized
    text. */
module Resolver {
  import opened Wrappers
  import opened CatalogStore

  /** One entry of the `searches` array: the n-grams to look up and, for the
      tiered searches, their window size. */
  datatype Search = Search(ngrams: seq<string>, size: Option<nat>)

  /** The search is worth sending (`!_.isEmpty(x.ngrams)`): it holds some
      n-gram. */
  predicate HasNgrams(s: Search) {
    |s.ngrams| > 0
  }

  /** A search after lookup: the manufacturer rows attached to it and the
      product rows, which stay absent (`undefined`) when product lookup is
      skipped. */
  datatype Found = Found(search: Search, manufacturers: seq<Manufacturer>, products: Option<seq<Product>>)

  /** The manufacturer and product chosen for one title (either may be `null`). */
  datatype Selection = Selection(manufacturer: Option<Manufacturer>, product: Option<Product>)

  /** The manufacturer statements of the searches, in order. */
  function ManufacturerQueries(searches: seq<Search>): (r: seq<Query>)
    ensures |r| == |searches|
    ensures forall i :: 0 <= i < |searches| ==> r[i] == ManufacturerQuery(searches[i].ngrams)
  {
    seq(|searches|, i requires 0 <= i < |searches| => ManufacturerQuery(searches[i].ngrams))
  }

  /** `findManufacturers`: runs the manufacturer statement for every search in
      order and attaches its rows. The first failing statement aborts the
      whole lookup. */
  function FindManufacturers(store: Store, searches: seq<Search>): (r: Result<seq<Found>, Query>)
    ensures r.Ok? <==> forall i :: 0 <= i < |searches| ==> ManufacturerQuery(searches[i].ngrams) !in store.failing
    ensures r.Err? ==>
              exists i :: 0 <= i < |searches| && r.error == ManufacturerQuery(searches[i].ngrams)
                && r.error in store.failing
                && forall j :: 0 <= j < i ==> ManufacturerQuery(searches[j].ngrams) !in store.failing
    ensures r.Ok? ==> |r.value| == |searches|
    ensures r.Ok? ==> forall i :: 0 <= i < |searches| ==>
              && r.value[i].search == searches[i]
              && r.value[i].manufacturers == ManufacturerRows(store.catalog, searches[i].ngrams)
              && r.value[i].products.None?
  {
    var refused := FirstRefused(store, ManufacturerQueries(searches));
    if refused.Some? then Err(refused.value)
    else Ok(seq(|searches|, i requires 0 <= i < |searches| =>
                  Found(searches[i], ManufacturerRows(store.catalog, searches[i].ngrams), None)))
  }

  /** `_.chain(searches).map('manufacturers').flatten()`: all attached
      manufacturer rows, search by search. */
  function AllManufacturers(found: seq<Found>): (r: seq<Manufacturer>)
    ensures forall m :: m in r <==> exists i :: 0 <= i < |found| && m in found[i].manufacturers
  {
    if |found| == 0 then []
    else
      var rest := AllManufacturers(found[1..]);
      assert forall i :: 1 <= i < |found| ==> found[i] == found[1..][i - 1];
      found[0].manufacturers + rest
  }

  /** The ids of a list of manufacturer rows, in order. */
  function Ids(ms: seq<Manufacturer>): (r: seq<int>)
    ensures forall id :: id in r <==> exists m :: m in ms && m.id == id
  {
    if |ms| == 0 then [] else [ms[0].id] + Ids(ms[1..])
  }

  /** The `manufacturerIds` of `findProducts`: the ids of every manufacturer row
      of every search, concatenated search by search. */
  function PooledIds(found: seq<Found>): (r: seq<int>)
    ensures forall id :: id in r <==> exists m :: m in AllManufacturers(found) && m.id == id
  {
    if |found| == 0 then []
    else
      var rest := PooledIds(found[1..]);
      assert AllManufacturers(found) == found[0].manufacturers + AllManufacturers(found[1..]);
      Ids(found[0].manufacturers) + rest
  }

  /** The product statements of `findProducts`, one per search, all scoped to
      the same ids. */
  function ProductQueries(ids: seq<int>, found: seq<Found>): (r: seq<Query>)
    ensures |r| == |found|
    ensures forall i :: 0 <= i < |found| ==> r[i] == ProductQuery(ids, found[i].search.ngrams)
  {
    seq(|found|, i requires 0 <= i < |found| => ProductQuery(ids, found[i].search.ngrams))
  }

  /** `findProducts`: with no manufacturer id at all the searches come back
      untouched and no product statement runs; otherwise every search gets the
      products of the pooled manufacturers that its n-grams name. */
  function FindProducts(store: Store, found: seq<Found>): (r: Result<seq<Found>, Query>)
    ensures |PooledIds(found)| == 0 ==> r == Ok(found)
    ensures r.Ok? <==>
              || |PooledIds(found)| == 0
              || forall i :: 0 <= i < |found| ==> ProductQuery(PooledIds(found), found[i].search.ngrams) !in store.failing
    ensures r.Ok? ==> |r.value| == |found|
    ensures r.Ok? ==> forall i :: 0 <= i < |found| ==>
              r.value[i].search == found[i].search && r.value[i].manufacturers == found[i].manufacturers
    ensures r.Ok? && |PooledIds(found)| > 0 ==> forall i :: 0 <= i < |found| ==>
              r.value[i].products == Some(ProductRows(store.catalog, PooledIds(found), found[i].search.ngrams))
    ensures r.Ok? && |PooledIds(found)| > 0 ==>
              forall i, p :: 0 <= i < |found| && p in r.value[i].products.value ==> p.manufacturerId in PooledIds(found)
  {
    var ids := PooledIds(found);
    if |ids| == 0 then Ok(found)
    else
      var refused := FirstRefused(store, ProductQueries(ids, found));
      if refused.Some? then Err(refused.value)
      else Ok(seq(|found|, i requires 0 <= i < |found| =>
                    found[i].(products := Some(ProductRows(store.catalog, ids, found[i].search.ngrams)))))
  }

  /** The search has a non-empty product list (`products && products.length > 0`):
      product lookup ran for it and found some product. */
  predicate HasProducts(f: Found) {
    f.products.Some? && |f.products.value| > 0
  }

  /** The product chosen for a title: the first product of the first search
      whose product list is not empty, or none. */
  function SelectProduct(found: seq<Found>): (r: Option<Product>)
    ensures r.Some? <==> exists i :: 0 <= i < |found| && HasProducts(found[i])
    ensures r.Some? ==>
              exists i :: 0 <= i < |found| && HasProducts(found[i])
                && r.value == found[i].products.value[0]
                && forall j :: 0 <= j < i ==> !HasProducts(found[j])
  {
    if |found| == 0 then None
    else if HasProducts(found[0]) then Some(found[0].products.value[0])
    else
      var r := SelectProduct(found[1..]);
      assert forall i :: 1 <= i < |found| ==> found[i] == found[1..][i - 1];
      r
  }

  /** The first manufacturer row with the given id. */
  function FindById(ms: seq<Manufacturer>, id: int): (r: Option<Manufacturer>)
    ensures r.Some? <==> exists m :: m in ms && m.id == id
    ensures r.Some? ==>
              exists k :: 0 <= k < |ms| && ms[k] == r.value && r.value.id == id
                && forall j :: 0 <= j < k ==> ms[j].id != id
  {
    if |ms| == 0 then None
    else if ms[0].id == id then Some(ms[0])
    else
      var r := FindById(ms[1..], id);
      assert forall m :: m in ms ==> m == ms[0] || m in ms[1..];
      r
  }

  /** `getManufacturer(id, searches)`: the first attached manufacturer with that
      id, found exactly when the id is among the pooled ids. */
  function GetManufacturer(id: int, found: seq<Found>): (r: Option<Manufacturer>)
    ensures r.Some? <==> id in PooledIds(found)
    ensures r.Some? ==> r.value.id == id && r.value in AllManufacturers(found)
  {
    FindById(AllManufacturers(found), id)
  }

  /** `getFirstManufacturer(searches)`: the head of the flattened manufacturer
      rows. */
  function GetFirstManufacturer(found: seq<Found>): (r: Option<Manufacturer>)
    ensures r.Some? <==> exists i :: 0 <= i < |found| && |found[i].manufacturers| > 0
    ensures r.Some? ==>
              exists i :: 0 <= i < |found| && |found[i].manufacturers| > 0
                && r.value == found[i].manufacturers[0]
                && forall j :: 0 <= j < i ==> found[j].manufacturers == []
  {
    var all := AllManufacturers(found);
    FlattenHead(found);
    if |all| == 0 then None else Some(all[0])
  }

  /** The head of the flattened rows is the first row of the earliest search
      that has one. */
  lemma {:induction false} FlattenHead(found: seq<Found>)
    ensures |AllManufacturers(found)| > 0 <==> exists i :: 0 <= i < |found| && |found[i].manufacturers| > 0
    ensures |AllManufacturers(found)| > 0 ==>
              exists i :: 0 <= i < |found| && |found[i].manufacturers| > 0
                && AllManufacturers(found)[0] == found[i].manufacturers[0]
                && forall j :: 0 <= j < i ==> found[j].manufacturers == []
  {
    if |found| > 0 {
      var rest := found[1..];
      FlattenHead(rest);
      if |found[0].manufacturers| == 0 {
        assert AllManufacturers(found) == AllManufacturers(rest);
        if exists i :: 0 <= i < |found| && |found[i].manufacturers| > 0 {
          var i :| 0 <= i < |found| && |found[i].manufacturers| > 0;
          assert rest[i - 1] == found[i];
        }
        if |AllManufacturers(found)| > 0 {
          var i :| 0 <= i < |rest| && |rest[i].manufacturers| > 0
                   && AllManufacturers(rest)[0] == rest[i].manufacturers[0]
                   && forall j :: 0 <= j < i ==> rest[j].manufacturers == [];
          assert found[i + 1] == rest[i];
          forall j | 0 <= j < i + 1
            ensures found[j].manufacturers == []
          {
            if j > 0 {
              assert found[j] == rest[j - 1];
            }
          }
        }
      } else {
        assert AllManufacturers(found)[0] == found[0].manufacturers[0];
      }
    }
  }

  /** The selection of a-index.js:115-117 (s-index.js:101-102): the first
      product, and then either its owner among the attached manufacturers or,
      without a product, the first attached manufacturer. */
  function Select(found: seq<Found>): (r: Selection)
    ensures r.product == SelectProduct(found)
    ensures r.product.Some? ==>
              (r.manufacturer.Some? <==> r.product.value.manufacturerId in PooledIds(found))
    ensures r.product.Some? && r.manufacturer.Some? ==>
              r.manufacturer.value.id == r.product.value.manufacturerId
    ensures r.product.None? ==> r.manufacturer == GetFirstManufacturer(found)
    ensures r.manufacturer.Some? ==> r.manufacturer.value in AllManufacturers(found)
  {
    var product := SelectProduct(found);
    if product.Some? then Selection(GetManufacturer(product.value.manufacturerId, found), product)
    else Selection(GetFirstManufacturer(found), product)
  }

  /** Resolving one title: manufacturers, then products, then the selection of
      both. A failing statement propagates to the caller. A selected product
      always comes with its own manufacturer. */
  function Resolve(store: Store, searches: seq<Search>): (r: Result<Selection, Query>)
    ensures |searches| == 0 ==> r == Ok(Selection(None, None))
    ensures r.Ok? && r.value.product.Some? ==>
              r.value.manufacturer.Some? && r.value.manufacturer.value.id == r.value.product.value.manufacturerId
    ensures r.Err? ==> r.error in store.failing
  {
    match FindManufacturers(store, searches)
    case Err(q) => Err(q)
    case Ok(withManufacturers) =>
      match FindProducts(store, withManufacturers)
      case Err(q) => Err(q)
      case Ok(withProducts) =>
        ProductOwnersArePooled(store, withManufacturers, withProducts);
        Ok(Select(withProducts))
  }

  /** After a successful product lookup, every product attached anywhere
      belongs to one of the pooled manufacturers. */
  lemma ProductOwnersArePooled(store: Store, found: seq<Found>, withProducts: seq<Found>)
    requires forall i :: 0 <= i < |found| ==> found[i].products.None?
    requires FindProducts(store, found) == Ok(withProducts)
    ensures PooledIds(withProducts) == PooledIds(found)
    ensures forall i, p :: 0 <= i < |withProducts| && withProducts[i].products.Some? && p in withProducts[i].products.value ==>
              p.manufacturerId in PooledIds(withProducts)
  {
    SameManufacturers(found, withProducts);
    SamePooledIds(found, withProducts);
  }

  /** Attaching products leaves the pooled ids as they were. */
  lemma {:induction false} SamePooledIds(a: seq<Found>, b: seq<Found>)
    requires |a| == |b|
    requires forall i :: 0 <= i < |a| ==> a[i].manufacturers == b[i].manufacturers
    ensures PooledIds(a) == PooledIds(b)
  {
    if |a| > 0 {
      SamePooledIds(a[1..], b[1..]);
    }
  }

  /** Attaching products leaves the flattened manufacturer rows as they were. */
  lemma {:induction false} SameManufacturers(a: seq<Found>, b: seq<Found>)
    requires |a| == |b|
    requires forall i :: 0 <= i < |a| ==> a[i].manufacturers == b[i].manufacturers
    ensures AllManufacturers(a) == AllManufacturers(b)
  {
    if |a| > 0 {
      SameManufacturers(a[1..], b[1..]);
    }
  }
}

=== FILE: rows.dfy ===
/** The CSV side of both scripts: an input record (title, recorded manufacturer
    id, recorded product id) and the result row written for it. */
module Rows {
  import opened Wrappers
  import opened Resolver

  /** One parsed line of `samples.csv`: its cells, in column order. */
  datatype Record = Record(cells: seq<string>)

  /** `processedText[k]`: the k-th cell, `undefined` past the end of the line. */
  function Cell(rec: Record, k: nat): (r: Option<string>)
    ensures r.Some? <==> k < |rec.cells|
    ensures r.Some? ==> r.value == rec.cells[k]
  {
    if k < |rec.cells| then Some(rec.cells[k]) else None
  }

  /** The columns `title`, `new_man`, `old_man`, `new_model`, `old_model` of
      the results file. An absent value is `undefined` in the script. */
  datatype ResultRow = ResultRow(
    title: Option<string>,
    newManufacturer: Option<int>,
    oldManufacturer: Option<string>,
    newProduct: Option<int>,
    oldProduct: Option<string>)

  /** The object pushed onto `results` for one record: the title and the
      recorded ids pass through unchanged, next to the ids of the selected
      manufacturer and product (`(x || {}).id`). */
  function RowOf(rec: Record, sel: Selection): (r: ResultRow)
    ensures r.title == Cell(rec, 0)
    ensures r.oldManufacturer == Cell(rec, 1) && r.oldProduct == Cell(rec, 2)
    ensures r.newManufacturer.Some? <==> sel.manufacturer.Some?
    ensures r.newManufacturer.Some? ==> r.newManufacturer.value == sel.manufacturer.value.id
    ensures r.newProduct.Some? <==> sel.product.Some?
    ensures r.newProduct.Some? ==> r.newProduct.value == sel.product.value.id
  {
    ResultRow(
      Cell(rec, 0),
      if sel.manufacturer.Some? then Some(sel.manufacturer.value.id) else None,
      Cell(rec, 1),
      if sel.product.Some? then Some(sel.product.value.id) else None,
      Cell(rec, 2))
  }

  /** The records the loop `for (let i = 1; i < rows.length; i++)` visits:
      everything after the header line. */
  function Body(csv: seq<Record>): (r: seq<Record>)
    ensures |csv| > 0 ==> |r| == |csv| - 1
    ensures |csv| == 0 ==> r == []
    ensures forall i :: 0 <= i < |r| ==> r[i] == csv[i + 1]
  {
    if |csv| == 0 then [] else csv[1..]
  }

  /** Removing line `k` of the file removes the record at `k - 1` of its body. */
  lemma BodyWithout(csv: seq<Record>, k: nat)
    requires 1 <= k < |csv|
    ensures Body(csv[..k] + csv[k + 1..]) == Body(csv)[..k - 1] + Body(csv)[k..]
  {
    var rest := csv[..k] + csv[k + 1..];
    var kept := Body(csv)[..k - 1] + Body(csv)[k..];
    forall i | 0 <= i < |Body(rest)|
      ensures Body(rest)[i] == kept[i]
    {
      if i < k - 1 {
        assert rest[i + 1] == csv[i + 1];
      } else {
        assert rest[i + 1] == csv[i + 2];
      }
    }
  }
}

=== FILE: seqs.dfy ===
/** Generic facts about sequences: duplicate freedom, filtering, mapping and the
    insertion-ordered de-duplication a JavaScript `Set` performs. */
module Seqs {

  /** No element occurs twice. */
  ghost predicate NoDup<T>(s: seq<T>) {
    forall i, j :: 0 <= i < j < |s| ==> s[i] != s[j]
  }

  /** The index of the first occurrence of `x` in `s`. */
  function FirstIndex<T(==)>(s: seq<T>, x: T): (k: nat)
    requires x in s
    ensures k < |s| && s[k] == x
    ensures x !in s[..k]
  {
    if s[0] == x then 0 else 1 + FirstIndex(s[1..], x)
  }

  /** The elements of `s` that satisfy `p`, in their original order. */
  function Filter<T(!new)>(s: seq<T>, p: T -> bool): (r: seq<T>)
    ensures |r| <= |s|
    ensures forall x :: x in r <==> x in s && p(x)
  {
    if |s| == 0 then []
    else if p(s[0]) then [s[0]] + Filter(s[1..], p)
    else Filter(s[1..], p)
  }

  /** `f` applied to every element of `s`. */
  function Map<T, U>(s: seq<T>, f: T -> U): (r: seq<U>)
    ensures |r| == |s|
    ensures forall i :: 0 <= i < |s| ==> r[i] == f(s[i])
  {
    seq(|s|, i requires 0 <= i < |s| => f(s[i]))
  }

  /** Removing the element at `k` before mapping removes its image after. */
  lemma MapWithout<T, U>(s: seq<T>, f: T -> U, k: nat)
    requires k < |s|
    ensures Map(s[..k] + s[k + 1..], f) == Map(s, f)[..k] + Map(s, f)[k + 1..]
  {
    var rest := s[..k] + s[k + 1..];
    var kept := Map(s, f)[..k] + Map(s, f)[k + 1..];
    forall i | 0 <= i < |rest|
      ensures Map(rest, f)[i] == kept[i]
    {
      if i < k {
        assert rest[i] == s[i];
      } else {
        assert rest[i] == s[i + 1];
      }
    }
  }

  /** The elements of `s` with every repetition after the first removed:
      what `[...new Set(s).values()]` computes. */
  function Dedup<T(==,!new)>(s: seq<T>): (r: seq<T>)
    ensures forall x :: x in r <==> x in s
    ensures NoDup(r)
    ensures |r| <= |s|
  {
    if |s| == 0 then []
    else
      var d := Dedup(s[..|s| - 1]);
      if s[|s| - 1] in d then d else d + [s[|s| - 1]]
  }

  /** Moving from a prefix of `s` to `s` itself does not change where an element
      of the prefix first occurs. */
  lemma {:induction false} FirstIndexOfPrefix<T>(s: seq<T>, n: nat, x: T)
    requires n <= |s| && x in s[..n]
    ensures FirstIndex(s, x) == FirstIndex(s[..n], x)
  {
    if s[0] != x {
      assert s[1..][..n - 1] == s[..n][1..];
      FirstIndexOfPrefix(s[1..], n - 1, x);
    }
  }

  /** `Dedup` keeps the elements in the order of their first occurrences. */
  lemma {:induction false} DedupKeepsFirstOccurrenceOrder<T(!new)>(s: seq<T>)
    ensures forall i, j :: 0 <= i < j < |Dedup(s)| ==>
              FirstIndex(s, Dedup(s)[i]) < FirstIndex(s, Dedup(s)[j])
  {
    if |s| > 0 {
      var p := s[..|s| - 1];
      var d := Dedup(p);
      var last := s[|s| - 1];
      DedupKeepsFirstOccurrenceOrder(p);
      assert s[..|s| - 1] == p;
      forall y | y in p
        ensures FirstIndex(s, y) == FirstIndex(p, y) < |p|
      {
        FirstIndexOfPrefix(s, |s| - 1, y);
      }
      if last !in d {
        assert last !in p;
        assert FirstIndex(s, last) == |p|;
      }
    }
  }

  /** A sequence without repetitions is its own de-duplication. */
  lemma {:induction false} DedupOfNoDup<T(!new)>(s: seq<T>)
    requires NoDup(s)
    ensures Dedup(s) == s
  {
    if |s| > 0 {
      var p := s[..|s| - 1];
      DedupOfNoDup(p);
      assert forall k :: 0 <= k < |p| ==> p[k] == s[k] != s[|s| - 1];
      assert p + [s[|s| - 1]] == s;
    }
  }

  /** De-duplicating is idempotent. */
  lemma DedupIdempotent<T(!new)>(s: seq<T>)
    ensures Dedup(Dedup(s)) == Dedup(s)
  {
    DedupOfNoDup(Dedup(s));
  }

  /** Appending more elements only extends the de-duplication of a prefix: the
      first occurrences in `a` keep their places at the head. */
  lemma {:induction false} DedupPrefix<T(!new)>(a: seq<T>, b: seq<T>)
    ensures Dedup(a) <= Dedup(a + b)
  {
    if |b| > 0 {
      var b' := b[..|b| - 1];
      assert (a + b)[..|a + b| - 1] == a + b';
      DedupPrefix(a, b');
    } else {
      assert a + b == a;
    }
  }

  /** Appending elements that already occur leaves the de-duplication as it is. */
  lemma {:induction false} DedupAbsorbs<T(!new)>(a: seq<T>, b: seq<T>)
    requires forall x :: x in b ==> x in a
    ensures Dedup(a + b) == Dedup(a)
  {
    if |b| > 0 {
      var b' := b[..|b| - 1];
      assert (a + b)[..|a + b| - 1] == a + b';
      assert (a + b)[|a + b| - 1] == b[|b| - 1];
      assert b[|b| - 1] in b;
      DedupAbsorbs(a, b');
    } else {
      assert a + b == a;
    }
  }

  /** When the elements `p` rejects are exactly those before position `k`,
      filtering drops that prefix and keeps the rest as it is. */
  lemma {:induction false} FilterDropsPrefix<T(!new)>(s: seq<T>, p: T -> bool, k: nat)
    requires k <= |s|
    requires forall i :: 0 <= i < k ==> !p(s[i])
    requires forall i :: k <= i < |s| ==> p(s[i])
    ensures Filter(s, p) == s[k..]
  {
    if |s| > 0 {
      if k == 0 {
        FilterDropsPrefix(s[1..], p, 0);
        assert s == [s[0]] + s[1..];
      } else {
        FilterDropsPrefix(s[1..], p, k - 1);
        assert s[1..][k - 1..] == s[k..];
      }
    }
  }
}

=== FILE: sindex.dfy ===
/** s-index.js: two searches per title, the n-grams of a natural-language
    parser as written and as normalized; a title whose lookup fails is
    skipped and the run goes on. */
module SIndex {
  import opened Wrappers
  import opened Seqs
  import opened Text
  import opened CatalogStore
  import opened Resolver
  import opened Resolution
  import opened Rows

  /** One entry of `nlp(title).ngrams().out("offsets")`: the n-gram as it
      appears in the title and its normalized form. */
  datatype NlpNgram = NlpNgram(text: string, normal: string)

  /** The text of every n-gram, trimmed (`ngrams.map(i => i.text.trim())`). */
  function RawTexts(grams: seq<NlpNgram>): (r: seq<string>)
    ensures |r| == |grams|
    ensures forall k :: 0 <= k < |grams| ==> r[k] == Trim(grams[k].text)
  {
    seq(|grams|, k requires 0 <= k < |grams| => Trim(grams[k].text))
  }

  /** The normalized form of every n-gram, trimmed. */
  function NormalTexts(grams: seq<NlpNgram>): (r: seq<string>)
    ensures |r| == |grams|
    ensures forall k :: 0 <= k < |grams| ==> r[k] == Trim(grams[k].normal)
  {
    seq(|grams|, k requires 0 <= k < |grams| => Trim(grams[k].normal))
  }

  /** s-index.js:87-94: the raw-text search, then the normalized one, each
      kept only if it has any n-gram. Both have one entry per parser n-gram,
      so either both stay or neither does. */
  function BuildSearches(grams: seq<NlpNgram>): (r: seq<Search>)
    ensures |grams| == 0 ==> r == []
    ensures |grams| > 0 ==> |r| == 2
    ensures |grams| > 0 ==> r[0].ngrams == RawTexts(grams) && r[1].ngrams == NormalTexts(grams)
    ensures forall i :: 0 <= i < |r| ==> r[i].size.None? && |r[i].ngrams| == |grams|
  {
    var raw := Search(RawTexts(grams), None);
    var normal := Search(NormalTexts(grams), None);
    var both := [raw, normal];
    FilterDropsPrefix(both, HasNgrams, if |grams| == 0 then 2 else 0);
    Filter(both, HasNgrams)
  }

  /** The body of the `try` block (s-index.js:97-110) for one record. The
      parser is a parameter; it receives `undefined` for a line without a
      title cell. */
  function ProcessRecord(nlp: Option<string> -> seq<NlpNgram>, store: Store, rec: Record): (r: Result<ResultRow, Query>)
    ensures r.Ok? ==> r.value.title == Cell(rec, 0)
    ensures r.Ok? ==> r.value.oldManufacturer == Cell(rec, 1) && r.value.oldProduct == Cell(rec, 2)
    ensures r.Err? ==> r.error in store.failing
    ensures |nlp(Cell(rec, 0))| == 0 ==> r.Ok? && r.value.newManufacturer.None? && r.value.newProduct.None?
  {
    var searches := BuildSearches(nlp(Cell(rec, 0)));
    var sel := Resolve(store, searches);
    if sel.Err? then Err(sel.error)
    else Ok(RowOf(rec, sel.value))
  }

  /** What a line's row reports: the line succeeds exactly when resolving its
      two searches does, and its row then holds the ids selected from the
      catalog's own answers to those searches. */
  lemma RecordRowIsSelection(nlp: Option<string> -> seq<NlpNgram>, store: Store, rec: Record)
    ensures ProcessRecord(nlp, store, rec).Ok? <==> Resolve(store, BuildSearches(nlp(Cell(rec, 0)))).Ok?
    ensures ProcessRecord(nlp, store, rec).Ok? ==>
              ProcessRecord(nlp, store, rec).value
                == RowOf(rec, Select(Answered(store.catalog, BuildSearches(nlp(Cell(rec, 0))))))
  {
    ResolvedIsSelected(store, BuildSearches(nlp(Cell(rec, 0))));
  }

  /** The outcome of every record after the header, in order. */
  function Outcomes(nlp: Option<string> -> seq<NlpNgram>, store: Store, csv: seq<Record>): (r: seq<Result<ResultRow, Query>>)
    ensures |r| == |Body(csv)|
    ensures forall i :: 0 <= i < |r| ==> r[i] == ProcessRecord(nlp, store, Body(csv)[i])
  {
    Map(Body(csv), rec => ProcessRecord(nlp, store, rec))
  }

  /** The whole script (s-index.js:81-116): the rows of the titles whose
      lookup succeeds, in order; a failing title is only logged. */
  function Run(nlp: Option<string> -> seq<NlpNgram>, store: Store, csv: seq<Record>): (r: seq<ResultRow>)
    ensures |r| <= |Body(csv)|
    ensures forall row :: row in r <==>
              exists i :: 0 <= i < |Body(csv)| && ProcessRecord(nlp, store, Body(csv)[i]) == Ok(row)
    ensures (forall i :: 0 <= i < |Body(csv)| ==> ProcessRecord(nlp, store, Body(csv)[i]).Ok?) ==>
              |r| == |Body(csv)| && forall i :: 0 <= i < |r| ==> r[i] == ProcessRecord(nlp, store, Body(csv)[i]).value
  {
    var outcomes := Outcomes(nlp, store, csv);
    OksOfOutcomes(outcomes, nlp, store, Body(csv));
    Oks(outcomes)
  }

  /** Collecting the successful outcomes of records, stated per record. */
  lemma OksOfOutcomes(outcomes: seq<Result<ResultRow, Query>>, nlp: Option<string> -> seq<NlpNgram>, store: Store, body: seq<Record>)
    requires |outcomes| == |body|
    requires forall i :: 0 <= i < |outcomes| ==> outcomes[i] == ProcessRecord(nlp, store, body[i])
    ensures |Oks(outcomes)| <= |body|
    ensures forall row :: row in Oks(outcomes) <==>
              exists i :: 0 <= i < |body| && ProcessRecord(nlp, store, body[i]) == Ok(row)
    ensures (forall i :: 0 <= i < |body| ==> ProcessRecord(nlp, store, body[i]).Ok?) ==>
              |Oks(outcomes)| == |body|
                && forall i :: 0 <= i < |body| ==> Oks(outcomes)[i] == ProcessRecord(nlp, store, body[i]).value
  {
  }

  /** A title whose lookup fails is left out of the results and nothing else
      changes: the rows are those of the same file without that line. */
  lemma FailingTitleSkipped(nlp: Option<string> -> seq<NlpNgram>, store: Store, csv: seq<Record>, k: nat)
    requires 1 <= k < |csv|
    requires ProcessRecord(nlp, store, csv[k]).Err?
    ensures Run(nlp, store, csv) == Run(nlp, store, csv[..k] + csv[k + 1..])
  {
    var o := Outcomes(nlp, store, csv);
    BodyWithout(csv, k);
    MapWithout(Body(csv), rec => ProcessRecord(nlp, store, rec), k - 1);
    OksWithout(o, k - 1);
  }

  /** The raw-text search takes precedence over the normalized one: the
      product selected is the first raw-text product when there is one, and
      otherwise the first normalized product, if any. */
  lemma RawTextFirst(cat: Catalog, grams: seq<NlpNgram>)
    ensures var ids := MatchedIds(cat, BuildSearches(grams));
            var sel := Select(Answered(cat, BuildSearches(grams)));
            && (ProductRows(cat, ids, RawTexts(grams)) != [] ==>
                  sel.product == Some(ProductRows(cat, ids, RawTexts(grams))[0]))
            && (ProductRows(cat, ids, RawTexts(grams)) == [] && ProductRows(cat, ids, NormalTexts(grams)) != [] ==>
                  sel.product == Some(ProductRows(cat, ids, NormalTexts(grams))[0]))
            && (ProductRows(cat, ids, RawTexts(grams)) == [] && ProductRows(cat, ids, NormalTexts(grams)) == [] <==>
                  sel.product.None?)
  {
    var searches := BuildSearches(grams);
    FirstProductWins(cat, searches);
    if |grams| == 0 {
      var ids := MatchedIds(cat, searches);
      assert RawTexts(grams) == [] && NormalTexts(grams) == [];
      NonEmptyHasHead(ProductRows(cat, ids, []));
    }
  }

  /** End to end: a line's `new_model` is the id of the first raw-text
      product when there is one, otherwise of the first normalized product,
      and is absent exactly when neither search has a product. */
  lemma RowPrefersRawText(nlp: Option<string> -> seq<NlpNgram>, store: Store, rec: Record)
    requires ProcessRecord(nlp, store, rec).Ok?
    ensures var grams := nlp(Cell(rec, 0));
            var ids := MatchedIds(store.catalog, BuildSearches(grams));
            var raw := ProductRows(store.catalog, ids, RawTexts(grams));
            var normal := ProductRows(store.catalog, ids, NormalTexts(grams));
            var row := ProcessRecord(nlp, store, rec).value;
            && (raw != [] ==> row.newProduct == Some(raw[0].id))
            && (raw == [] && normal != [] ==> row.newProduct == Some(normal[0].id))
            && (raw == [] && normal == [] <==> row.newProduct.None?)
  {
    RecordRowIsSelection(nlp, store, rec);
    RawTextFirst(store.catalog, nlp(Cell(rec, 0)));
  }

  /** A row that reports a product reports a manufacturer as well, and the
      catalog has a product with that id owned by that manufacturer. */
  lemma ManufacturerFollowsProduct(nlp: Option<string> -> seq<NlpNgram>, store: Store, rec: Record)
    requires ProcessRecord(nlp, store, rec).Ok?
    requires ProcessRecord(nlp, store, rec).value.newProduct.Some?
    ensures ProcessRecord(nlp, store, rec).value.newManufacturer.Some?
    ensures exists p :: p in store.catalog.products
              && p.id == ProcessRecord(nlp, store, rec).value.newProduct.value
              && p.manufacturerId == ProcessRecord(nlp, store, rec).value.newManufacturer.value
  {
    var searches := BuildSearches(nlp(Cell(rec, 0)));
    ResolveIsSelectOfAnswered(store, searches);
    var sel := Select(Answered(store.catalog, searches));
    assert Resolve(store, searches) == Ok(sel);
    SelectionIsNamed(store.catalog, searches);
    assert sel.product.value in store.catalog.products;
  }
}

=== FILE: text.dfy ===
/** String operations the matcher is built from: JavaScript's `split`/`join`
    (and the `replaceAll` made of them), the whitespace tokenizer, `trim`, and
    contiguous word n-grams. */
module Text {
  import opened Seqs

  /** A character JavaScript's regular-expression class `\s` matches; the same
      set `String.prototype.trim` removes. */
  predicate IsSpace(c: char) {
    || c == ' ' || c == '\t' || c == '\n' || c == '\r'
    || c == '\U{000B}' || c == '\U{000C}' || c == '\U{00A0}' || c == '\U{1680}'
    || ('\U{2000}' <= c <= '\U{200A}')
    || c == '\U{2028}' || c == '\U{2029}' || c == '\U{202F}' || c == '\U{205F}'
    || c == '\U{3000}' || c == '\U{FEFF}'
  }

  /** No character of `w` is whitespace. */
  predicate NoSpace(w: string) {
    forall k :: 0 <= k < |w| ==> !IsSpace(w[k])
  }

  /** A token: a non-empty run of non-whitespace characters. */
  predicate IsWord(w: string) {
    |w| > 0 && NoSpace(w)
  }

  /** `parts.join(sep)`: the parts with `sep` between neighbours. */
  function JoinWith(parts: seq<string>, sep: string): (r: string)
    ensures |parts| > 0 ==> parts[0] <= r
    ensures |parts| > 1 ==> parts[0] + sep <= r
  {
    if |parts| == 0 then ""
    else if |parts| == 1 then parts[0]
    else parts[0] + sep + JoinWith(parts[1..], sep)
  }

  /** `s.split(c)` for a one-character separator: the pieces between the
      occurrences of `c`, including the empty ones at either end. */
  function Split(s: string, c: char): (r: seq<string>)
    ensures |r| >= 1
    ensures forall i :: 0 <= i < |r| ==> c !in r[i]
  {
    if |s| == 0 then [""]
    else if s[0] == c then [""] + Split(s[1..], c)
    else
      var rest := Split(s[1..], c);
      [[s[0]] + rest[0]] + rest[1..]
  }

  /** Widening the first piece widens the joined string at its head. */
  lemma JoinWithExtendsHead(x: char, parts: seq<string>, sep: string)
    requires |parts| >= 1
    ensures JoinWith([[x] + parts[0]] + parts[1..], sep) == [x] + JoinWith(parts, sep)
  {
    var ps := [[x] + parts[0]] + parts[1..];
    assert ps[1..] == parts[1..];
  }

  /** Splitting at `c` and joining with `d` replaces every `c` by `d`, character
      by character. */
  lemma {:induction false} SplitJoinReplaces(s: string, c: char, d: char)
    ensures |JoinWith(Split(s, c), [d])| == |s|
    ensures forall i :: 0 <= i < |s| ==>
              JoinWith(Split(s, c), [d])[i] == (if s[i] == c then d else s[i])
  {
    if |s| > 0 {
      SplitJoinReplaces(s[1..], c, d);
      var rest := Split(s[1..], c);
      if s[0] == c {
        assert ([""] + rest)[1..] == rest;
      } else {
        JoinWithExtendsHead(s[0], rest, [d]);
      }
    }
  }

  /** Joining the pieces of `s.split(c)` with `c` gives `s` back. */
  lemma SplitJoinRoundTrip(s: string, c: char)
    ensures JoinWith(Split(s, c), [c]) == s
  {
    SplitJoinReplaces(s, c, c);
  }

  /** `replaceAll(str, find, replace)` of a-index.js, character by character:
      every occurrence of `find` becomes `replace` and nothing else changes.
      `ReplaceAllIsSplitJoin` shows it is `str.split(find).join(replace)`. */
  function ReplaceAll(s: string, find: char, replace: char): (r: string)
    ensures |r| == |s|
    ensures find != replace ==> find !in r
    ensures find == replace ==> r == s
    ensures forall c :: c in r && c != replace ==> c in s
  {
    seq(|s|, i requires 0 <= i < |s| => if s[i] == find then replace else s[i])
  }

  /** The replacement is what the script computes: split at `find`, join with
      `replace`. */
  lemma ReplaceAllIsSplitJoin(s: string, find: char, replace: char)
    ensures ReplaceAll(s, find, replace) == JoinWith(Split(s, find), [replace])
  {
    SplitJoinReplaces(s, find, replace);
  }

  /** The current token, if any, as a list of zero or one tokens. */
  function Flush(cur: string): seq<string> {
    if cur == "" then [] else [cur]
  }

  /** Scans `s` with `cur` the token read so far, cutting at whitespace and
      dropping empty pieces. */
  function Scan(s: string, cur: string): (r: seq<string>)
    requires NoSpace(cur)
    ensures forall k :: 0 <= k < |r| ==> IsWord(r[k])
    decreases |s|
  {
    if |s| == 0 then Flush(cur)
    else if IsSpace(s[0]) then Flush(cur) + Scan(s[1..], "")
    else Scan(s[1..], cur + [s[0]])
  }

  /** The tokenizer: `split(/\s+/)` followed by dropping empty pieces. */
  function Tokenize(s: string): (r: seq<string>)
    ensures forall k :: 0 <= k < |r| ==> IsWord(r[k])
  {
    Scan(s, "")
  }

  /** `s` with every whitespace character removed. */
  function RemoveSpaces(s: string): string {
    if |s| == 0 then ""
    else if IsSpace(s[0]) then RemoveSpaces(s[1..])
    else [s[0]] + RemoveSpaces(s[1..])
  }

  lemma {:induction false} JoinEmptyAppend(a: seq<string>, b: seq<string>)
    ensures JoinWith(a + b, "") == JoinWith(a, "") + JoinWith(b, "")
  {
    if |a| > 0 {
      JoinEmptyAppend(a[1..], b);
      assert (a + b)[1..] == a[1..] + b;
      if |a| == 1 && |b| == 0 {
        assert a + b == a;
      }
    } else {
      assert a + b == b;
    }
  }

  lemma {:induction false} ScanKeepsCharacters(s: string, cur: string)
    requires NoSpace(cur)
    ensures JoinWith(Scan(s, cur), "") == cur + RemoveSpaces(s)
    decreases |s|
  {
    if |s| == 0 {
    } else if IsSpace(s[0]) {
      ScanKeepsCharacters(s[1..], "");
      JoinEmptyAppend(Flush(cur), Scan(s[1..], ""));
    } else {
      ScanKeepsCharacters(s[1..], cur + [s[0]]);
    }
  }

  /** Tokenizing loses nothing but whitespace: the tokens, concatenated, are the
      input with its whitespace removed. */
  lemma TokensAreTheNonSpaceCharacters(s: string)
    ensures JoinWith(Tokenize(s), "") == RemoveSpaces(s)
  {
    ScanKeepsCharacters(s, "");
  }

  /** A title made of whitespace only has no tokens. */
  lemma {:induction false} BlankHasNoTokens(s: string)
    requires forall k :: 0 <= k < |s| ==> IsSpace(s[k])
    ensures Tokenize(s) == []
    decreases |s|
  {
    if |s| > 0 {
      BlankHasNoTokens(s[1..]);
    }
  }

  lemma {:induction false} ScanReadsWord(w: string, rest: string, cur: string)
    requires NoSpace(w) && NoSpace(cur)
    ensures Scan(w + rest, cur) == Scan(rest, cur + w)
    decreases |w|
  {
    if |w| == 0 {
      assert w + rest == rest;
      assert cur + w == cur;
    } else {
      assert (w + rest)[1..] == w[1..] + rest;
      assert cur + [w[0]] + w[1..] == cur + w;
      ScanReadsWord(w[1..], rest, cur + [w[0]]);
    }
  }

  /** Tokenizing the space-joined tokens gives the tokens back. */
  lemma {:induction false} TokenizeJoinRoundTrip(toks: seq<string>)
    requires forall k :: 0 <= k < |toks| ==> IsWord(toks[k])
    ensures Tokenize(JoinWith(toks, " ")) == toks
  {
    if |toks| == 1 {
      ScanReadsWord(toks[0], "", "");
      assert toks[0] + "" == toks[0];
      assert "" + toks[0] == toks[0];
    } else if |toks| > 1 {
      TokenizeJoinRoundTrip(toks[1..]);
      var j := JoinWith(toks[1..], " ");
      assert JoinWith(toks, " ") == toks[0] + (" " + j);
      ScanReadsWord(toks[0], " " + j, "");
      assert "" + toks[0] == toks[0];
      assert (" " + j)[1..] == j;
      assert toks == [toks[0]] + toks[1..];
    }
  }

  /** A single word is a single token. */
  lemma TokenizeWord(w: string)
    requires IsWord(w)
    ensures Tokenize(w) == [w]
  {
    ScanReadsWord(w, "", "");
    assert w + "" == w;
    assert "" + w == w;
  }

  lemma {:induction false} ScanAtSpace(a: string, c: char, b: string, cur: string)
    requires IsSpace(c) && NoSpace(cur)
    ensures Scan(a + [c] + b, cur) == Scan(a, cur) + Scan(b, "")
    decreases |a|
  {
    if |a| == 0 {
      assert a + [c] + b == [c] + b;
      assert ([c] + b)[1..] == b;
    } else {
      assert (a + [c] + b)[1..] == a[1..] + [c] + b;
      if IsSpace(a[0]) {
        ScanAtSpace(a[1..], c, b, "");
      } else {
        ScanAtSpace(a[1..], c, b, cur + [a[0]]);
      }
    }
  }

  /** A whitespace character always separates tokens: what comes before it and
      what comes after it are tokenized independently. */
  lemma TokenizeAtSpace(a: string, c: char, b: string)
    requires IsSpace(c)
    ensures Tokenize(a + [c] + b) == Tokenize(a) + Tokenize(b)
  {
    ScanAtSpace(a, c, b, "");
  }

  /** A piece that survives the tokenizer's `discardEmpty`. */
  predicate NonEmpty(w: string) {
    |w| > 0
  }

  /** `s.split(/\s/)`: the pieces between whitespace characters, empty ones
      included. Splitting at every whitespace character rather than at runs of
      them only adds empty pieces, which the tokenizer discards. */
  function SpaceSplit(s: string): (r: seq<string>)
    ensures |r| >= 1
    ensures forall i :: 0 <= i < |r| ==> NoSpace(r[i])
  {
    if |s| == 0 then [""]
    else if IsSpace(s[0]) then [""] + SpaceSplit(s[1..])
    else
      var rest := SpaceSplit(s[1..]);
      assert forall k :: 0 <= k < |[s[0]] + rest[0]| ==> ([s[0]] + rest[0])[k] == (if k == 0 then s[0] else rest[0][k - 1]);
      [[s[0]] + rest[0]] + rest[1..]
  }

  /** The pieces with `cur` glued to the front of the first one. */
  function WithHead(cur: string, parts: seq<string>): seq<string>
    requires |parts| >= 1
  {
    [cur + parts[0]] + parts[1..]
  }

  lemma {:induction false} ScanIsSplitFilter(s: string, cur: string)
    requires NoSpace(cur)
    ensures Scan(s, cur) == Filter(WithHead(cur, SpaceSplit(s)), NonEmpty)
    decreases |s|
  {
    var parts := SpaceSplit(s);
    if |s| == 0 {
      assert cur + "" == cur;
      assert WithHead(cur, parts) == [cur];
      assert [cur][1..] == [];
    } else if IsSpace(s[0]) {
      var rest := SpaceSplit(s[1..]);
      ScanIsSplitFilter(s[1..], "");
      EmptyHead(rest);
      var w := WithHead(cur, parts);
      assert parts == [""] + rest;
      assert cur + "" == cur;
      assert w[0] == cur && w[1..] == rest;
      assert Filter(w, NonEmpty) == Flush(cur) + Filter(rest, NonEmpty);
    } else {
      var rest := SpaceSplit(s[1..]);
      ScanIsSplitFilter(s[1..], cur + [s[0]]);
      assert parts[0] == [s[0]] + rest[0] && parts[1..] == rest[1..];
      assert cur + ([s[0]] + rest[0]) == (cur + [s[0]]) + rest[0];
    }
  }

  /** The tokenizer is the `RegexpTokenizer` with pattern `\s+` and
      `discardEmpty`: split at whitespace, then drop the empty pieces. */
  lemma TokenizeIsSplitDiscardEmpty(s: string)
    ensures Tokenize(s) == Filter(SpaceSplit(s), NonEmpty)
  {
    ScanIsSplitFilter(s, "");
    EmptyHead(SpaceSplit(s));
  }

  /** Gluing nothing to the first piece changes nothing. */
  lemma EmptyHead(parts: seq<string>)
    requires |parts| >= 1
    ensures WithHead("", parts) == parts
  {
    assert "" + parts[0] == parts[0];
    assert [parts[0]] + parts[1..] == parts;
  }

  /** `s.trimStart()`. */
  function TrimStart(s: string): (r: string)
    ensures |r| <= |s| && r == s[|s| - |r|..]
    ensures |r| > 0 ==> !IsSpace(r[0])
    ensures forall k :: 0 <= k < |s| - |r| ==> IsSpace(s[k])
  {
    if |s| > 0 && IsSpace(s[0]) then TrimStart(s[1..]) else s
  }

  /** `s.trimEnd()`. */
  function TrimEnd(s: string): (r: string)
    ensures |r| <= |s| && r == s[..|r|]
    ensures |r| > 0 ==> !IsSpace(r[|r| - 1])
    ensures forall k :: |r| <= k < |s| ==> IsSpace(s[k])
  {
    if |s| > 0 && IsSpace(s[|s| - 1]) then TrimEnd(s[..|s| - 1]) else s
  }

  /** `s.trim()`: `s` without its leading and trailing whitespace. The result is
      a contiguous slice of `s`, it neither starts nor ends with whitespace, and
      only whitespace was cut off. */
  function Trim(s: string): (r: string)
    ensures exists i :: 0 <= i <= |s| && r <= s[i..]
              && (forall k :: 0 <= k < i ==> IsSpace(s[k]))
              && (forall k :: i + |r| <= k < |s| ==> IsSpace(s[k]))
    ensures |r| > 0 ==> !IsSpace(r[0]) && !IsSpace(r[|r| - 1])
  {
    var t := TrimStart(s);
    var r := TrimEnd(t);
    var i := |s| - |t|;
    assert r <= s[i..];
    r
  }

  /** `NGrams.ngrams(tokens, n)` joined with single spaces: every window of `n`
      consecutive tokens, left to right. */
  function NGrams(tokens: seq<string>, n: nat): (r: seq<string>)
    ensures n > |tokens| ==> r == []
    ensures n <= |tokens| ==> |r| == |tokens| - n + 1
    ensures n >= 1 && (forall k :: 0 <= k < |tokens| ==> IsWord(tokens[k])) ==>
              forall i :: 0 <= i < |r| ==> Tokenize(r[i]) == tokens[i..i + n]
    ensures n >= 1 && (forall k :: 0 <= k < |tokens| ==> IsWord(tokens[k])) ==>
              forall i :: 0 <= i < |r| ==> JoinWith(Tokenize(r[i]), " ") == r[i]
  {
    var count := if n <= |tokens| + 1 then |tokens| + 1 - n else 0;
    var r := seq(count, i requires 0 <= i < count => JoinWith(tokens[i..i + n], " "));
    if 1 <= n <= |tokens| && (forall k :: 0 <= k < |tokens| ==> IsWord(tokens[k])) then
      WindowsTokenizeBack(tokens, n, r);
      r
    else r
  }

  lemma WindowsTokenizeBack(tokens: seq<string>, n: nat, r: seq<string>)
    requires n >= 1 && n <= |tokens| + 1
    requires forall k :: 0 <= k < |tokens| ==> IsWord(tokens[k])
    requires |r| == |tokens| + 1 - n
    requires forall i :: 0 <= i < |r| ==> r[i] == JoinWith(tokens[i..i + n], " ")
    ensures forall i :: 0 <= i < |r| ==> Tokenize(r[i]) == tokens[i..i + n]
    ensures forall i :: 0 <= i < |r| ==> JoinWith(Tokenize(r[i]), " ") == r[i]
  {
    forall i | 0 <= i < |r|
      ensures Tokenize(r[i]) == tokens[i..i + n]
      ensures JoinWith(Tokenize(r[i]), " ") == r[i]
    {
      TokenizeJoinRoundTrip(tokens[i..i + n]);
    }
  }

  /** The windows of size one are the tokens themselves. */
  lemma UnigramsAreTokens(tokens: seq<string>)
    ensures NGrams(tokens, 1) == tokens
  {
    var r := NGrams(tokens, 1);
    forall i | 0 <= i < |tokens|
      ensures r[i] == tokens[i]
    {
      assert tokens[i..i + 1] == [tokens[i]];
      assert r[i] == JoinWith([tokens[i]], " ");
    }
  }
}

=== FILE: variants.dfy ===
/** Punctuation-variant expansion of a-index.js: every n-gram is respelled with
    each of the special characters `-`, `/`, `.` replaced by each of them, so
    that "bp 20/50" also looks up "bp 20-50" and "bp 20.50". */
module Variants {
  import opened Seqs
  import opened Text

  /** `specialChars` of a-index.js, in its order. */
  const SpecialChars: seq<char> := ['-', '/', '.']

  /** `x` is `s` with one special character replaced by another (possibly the
      same one, which gives `s` itself). */
  ghost predicate IsVariant(x: string, s: string) {
    exists a, b :: a in SpecialChars && b in SpecialChars && x == ReplaceAll(s, a, b)
  }

  /** `s` contains none of the special characters. */
  predicate NoSpecial(s: string) {
    forall a :: a in SpecialChars ==> a !in s
  }

  /** The three respellings of `s` that replace `a`, in `specialChars` order. */
  function ReplacementsOf(s: string, a: char): seq<string> {
    [ReplaceAll(s, a, '-'), ReplaceAll(s, a, '/'), ReplaceAll(s, a, '.')]
  }

  /** `replaceSpecialChars(str)`: the 9 respellings, outer loop over the character
      replaced and inner loop over its replacement, in `specialChars` order. */
  function ReplaceSpecialChars(s: string): (r: seq<string>)
    ensures |r| == 9
    ensures r[0] == s
    ensures forall x :: x in r <==> IsVariant(x, s)
    ensures NoSpecial(s) ==> forall k :: 0 <= k < 9 ==> r[k] == s
  {
    var r := ReplacementsOf(s, '-') + ReplacementsOf(s, '/') + ReplacementsOf(s, '.');
    RespellingsAreVariants(s, r);
    if NoSpecial(s) then
      NoSpecialIsFixed(s);
      r
    else r
  }

  lemma RespellingsAreVariants(s: string, r: seq<string>)
    requires r == ReplacementsOf(s, '-') + ReplacementsOf(s, '/') + ReplacementsOf(s, '.')
    ensures forall x :: x in r <==> IsVariant(x, s)
  {
    ReplacementsOfOne(s, '-');
    ReplacementsOfOne(s, '/');
    ReplacementsOfOne(s, '.');
    assert forall x :: x in r <==>
      x in ReplacementsOf(s, '-') || x in ReplacementsOf(s, '/') || x in ReplacementsOf(s, '.');
  }

  /** The three respellings that replace `a` are `s` with `a` replaced by
      each special character. */
  lemma ReplacementsOfOne(s: string, a: char)
    ensures forall x :: x in ReplacementsOf(s, a) <==> exists b :: b in SpecialChars && x == ReplaceAll(s, a, b)
  {
    var three := ReplacementsOf(s, a);
    forall x | x in three
      ensures exists b :: b in SpecialChars && x == ReplaceAll(s, a, b)
    {
      var k :| 0 <= k < 3 && three[k] == x;
      assert x == ReplaceAll(s, a, SpecialChars[k]);
    }
  }

  /** Replacing a character that does not occur changes nothing. */
  lemma NoSpecialIsFixed(s: string)
    requires NoSpecial(s)
    ensures forall a, b :: a in SpecialChars && b in SpecialChars ==> ReplaceAll(s, a, b) == s
  {
    forall a, b | a in SpecialChars && b in SpecialChars
      ensures ReplaceAll(s, a, b) == s
    {
      var r := ReplaceAll(s, a, b);
      assert forall i :: 0 <= i < |s| ==> s[i] != a;
    }
  }

  /** The variants pushed after the inputs: the 9 respellings of each input,
      input by input. */
  function AllVariants(ngrams: seq<string>): (r: seq<string>)
    ensures forall x :: x in r <==> exists t :: t in ngrams && IsVariant(x, t)
  {
    if |ngrams| == 0 then []
    else
      var head := ReplaceSpecialChars(ngrams[0]);
      var rest := AllVariants(ngrams[1..]);
      assert forall t :: t in ngrams ==> t == ngrams[0] || t in ngrams[1..];
      head + rest
  }

  /** When no input holds a special character, every variant is an input. */
  lemma VariantsOfPlainAreInputs(ngrams: seq<string>)
    requires forall t :: t in ngrams ==> NoSpecial(t)
    ensures forall x :: x in AllVariants(ngrams) ==> x in ngrams
  {
    forall x | x in AllVariants(ngrams)
      ensures x in ngrams
    {
      var t :| t in ngrams && IsVariant(x, t);
      NoSpecialIsFixed(t);
    }
  }

  /** `withSpecialChars(tokens)`: the inputs followed by all their variants,
      de-duplicated keeping first occurrences in order. */
  function WithSpecialChars(ngrams: seq<string>): (r: seq<string>)
    ensures forall x :: x in r <==> exists t :: t in ngrams && IsVariant(x, t)
    ensures forall t :: t in ngrams ==> t in r
    ensures NoDup(r)
    ensures Dedup(ngrams) <= r
    ensures (forall t :: t in ngrams ==> NoSpecial(t)) ==> r == Dedup(ngrams)
    ensures |r| == 0 <==> |ngrams| == 0
  {
    var variants := AllVariants(ngrams);
    ExpansionMembers(ngrams);
    DedupPrefix(ngrams, variants);
    ExpansionEmpty(ngrams);
    PlainExpansion(ngrams);
    Dedup(ngrams + variants)
  }

  /** `x` is a punctuation respelling of one of the windows. */
  ghost predicate RespellsWindow(x: string, windows: seq<string>) {
    exists v :: 0 <= v < |windows| && IsVariant(x, windows[v])
  }

  /** Every expanded n-gram is a respelling of the input at some position. */
  lemma ExpansionRespells(ngrams: seq<string>, x: string)
    requires x in WithSpecialChars(ngrams)
    ensures RespellsWindow(x, ngrams)
  {
    var t :| t in ngrams && IsVariant(x, t);
    var v := FirstIndex(ngrams, t);
    assert IsVariant(x, ngrams[v]);
  }

  /** Only an empty input expands to nothing. */
  lemma ExpansionEmpty(ngrams: seq<string>)
    ensures |Dedup(ngrams + AllVariants(ngrams))| == 0 <==> |ngrams| == 0
  {
    var e := ngrams + AllVariants(ngrams);
    if |ngrams| > 0 {
      assert e[0] in e;
    } else {
      assert AllVariants(ngrams) == [];
      assert e == [];
    }
  }

  /** Inputs without special characters expand to themselves, de-duplicated. */
  lemma PlainExpansion(ngrams: seq<string>)
    ensures (forall t :: t in ngrams ==> NoSpecial(t)) ==>
              Dedup(ngrams + AllVariants(ngrams)) == Dedup(ngrams)
  {
    if forall t :: t in ngrams ==> NoSpecial(t) {
      VariantsOfPlainAreInputs(ngrams);
      DedupAbsorbs(ngrams, AllVariants(ngrams));
    }
  }

  /** The inputs followed by their variants are exactly the variants of the
      inputs, since every string is a variant of itself. */
  lemma ExpansionMembers(ngrams: seq<string>)
    ensures forall x :: x in ngrams + AllVariants(ngrams) <==> exists t :: t in ngrams && IsVariant(x, t)
  {
    forall t | t in ngrams
      ensures IsVariant(t, t)
    {
      assert ReplaceAll(t, '-', '-') == t;
    }
  }

  /** A token holding a special character `a` is also looked up under its
      three respellings with `a` replaced by each special character, and
      these are pairwise distinct: one lookup string per replacement
      character (so "bp 20/50" brings "bp 20-50", "bp 20/50" and "bp 20.50"). */
  lemma SpecialCharRespellings(ngrams: seq<string>, t: string, a: char)
    requires t in ngrams && a in SpecialChars && a in t
    ensures forall x :: x in ReplacementsOf(t, a) ==> x in WithSpecialChars(ngrams)
    ensures NoDup(ReplacementsOf(t, a))
  {
    RespellingsLookedUp(ngrams, t, a);
    RespellingsDiffer(t, a);
  }

  /** Every respelling of an input is looked up. */
  lemma RespellingsLookedUp(ngrams: seq<string>, t: string, a: char)
    requires t in ngrams && a in SpecialChars
    ensures forall x :: x in ReplacementsOf(t, a) ==> x in WithSpecialChars(ngrams)
  {
    ReplacementsOfOne(t, a);
    forall x | x in ReplacementsOf(t, a)
      ensures x in WithSpecialChars(ngrams)
    {
      assert IsVariant(x, t);
    }
  }

  /** Replacing a character that occurs by two different characters gives
      two different strings. */
  lemma RespellingsDiffer(t: string, a: char)
    requires a in t
    ensures NoDup(ReplacementsOf(t, a))
  {
    var k :| 0 <= k < |t| && t[k] == a;
    var three := ReplacementsOf(t, a);
    forall i, j | 0 <= i < j < 3
      ensures three[i] != three[j]
    {
      assert three[i][k] == SpecialChars[i];
      assert three[j][k] == SpecialChars[j];
    }
  }
}

=== FILE: wrappers.dfy ===
/** Optional values and results, standing in for JavaScript's `undefined`/`null`
    and for a rejected promise. */
module Wrappers {

  /** A value that may be absent (`undefined` or `null` in the scripts). */
  datatype Option<+T> = None | Some(value: T)

  /** The outcome of an operation that talks to the catalog store: either the
      value it computed, or the error that made it give up. */
  datatype Result<+T, +E> = Ok(value: T) | Err(error: E)

  /** The error of the first failed outcome in a list of outcomes, if any:
      where a loop that stops at the first failure gives up. */
  function FirstError<T, E>(rs: seq<Result<T, E>>): (r: Option<E>)
    ensures r.None? <==> forall i :: 0 <= i < |rs| ==> rs[i].Ok?
    ensures r.Some? ==>
              exists i :: 0 <= i < |rs| && rs[i] == Err(r.value)
                && forall j :: 0 <= j < i ==> rs[j].Ok?
  {
    if |rs| == 0 then None
    else if rs[0].Err? then Some(rs[0].error)
    else
      var r := FirstError(rs[1..]);
      assert forall i :: 1 <= i < |rs| ==> rs[i] == rs[1..][i - 1];
      r
  }

  /** The values of the successful outcomes, in order: what a loop that
      skips failures collects. */
  function Oks<T(!new), E>(rs: seq<Result<T, E>>): (r: seq<T>)
    ensures |r| <= |rs|
    ensures forall x :: x in r <==> exists i :: 0 <= i < |rs| && rs[i] == Ok(x)
    ensures (forall i :: 0 <= i < |rs| ==> rs[i].Ok?) ==>
              |r| == |rs| && forall i :: 0 <= i < |rs| ==> r[i] == rs[i].value
  {
    if |rs| == 0 then []
    else
      var rest := Oks(rs[1..]);
      assert forall i :: 1 <= i < |rs| ==> rs[i] == rs[1..][i - 1];
      if rs[0].Ok? then [rs[0].value] + rest else rest
  }

  /** Collecting successes distributes over concatenation, so a failure
      anywhere only drops its own outcome. */
  lemma {:induction false} OksAppend<T(!new), E>(a: seq<Result<T, E>>, b: seq<Result<T, E>>)
    ensures Oks(a + b) == Oks(a) + Oks(b)
  {
    if |a| > 0 {
      var ab := a + b;
      assert ab[0] == a[0];
      assert ab[1..] == a[1..] + b;
      OksAppend(a[1..], b);
      if a[0].Ok? {
        calc {
          Oks(ab);
          [a[0].value] + Oks(ab[1..]);
          [a[0].value] + (Oks(a[1..]) + Oks(b));
          ([a[0].value] + Oks(a[1..])) + Oks(b);
        }
      }
    } else {
      assert a + b == b;
    }
  }

  /** A failed outcome contributes nothing to the collected values. */
  lemma OksSkipsErr<T(!new), E>(before: seq<Result<T, E>>, e: Result<T, E>, after: seq<Result<T, E>>)
    requires e.Err?
    ensures Oks(before + [e] + after) == Oks(before + after)
  {
    calc {
      Oks(before + [e] + after);
      { OksAppend(before + [e], after); }
      Oks(before + [e]) + Oks(after);
      { OksAppend(before, [e]); OksOfErr(e); }
      Oks(before) + Oks(after);
      { OksAppend(before, after); }
      Oks(before + after);
    }
  }

  /** A lone failure collects nothing. */
  lemma OksOfErr<T(!new), E>(e: Result<T, E>)
    requires e.Err?
    ensures Oks([e]) == []
  {
    assert [e][1..] == [];
  }

  /** Removing a failed outcome leaves the collected values as they are. */
  lemma OksWithout<T(!new), E>(rs: seq<Result<T, E>>, k: nat)
    requires k < |rs| && rs[k].Err?
    ensures Oks(rs[..k] + rs[k + 1..]) == Oks(rs)
  {
    SplitAt(rs, k);
    OksSkipsErr(rs[..k], rs[k], rs[k + 1..]);
  }

  /** A sequence is its prefix, its element at `k` and its suffix. */
  lemma SplitAt<T>(s: seq<T>, k: nat)
    requires k < |s|
    ensures s == s[..k] + [s[k]] + s[k + 1..]
  {
  }
}
